=== FILE: README.md ===
# Forward-chaining knowledge base with truth maintenance, in Dafny

This project models the knowledge base of a small forward-chaining inference
engine (`KnowledgeBase` and `InferenceEngine` in `student_code.py`):

- **Adding** (`kb_add`, `kb_assert`): the knowledge base keeps an
  insertion-ordered list of facts and one of rules, each free of duplicates
  under structural equality. A new item is appended and then paired with every
  counterpart (a new fact with every rule, a new rule with every fact) through
  the inference step. A duplicate is never re-inserted: a derived duplicate
  hands its support pairs to the stored entry, an underived one marks the stored
  entry asserted.
- **Inference** (`fc_infer`): the fact is matched against the rule's first
  antecedent; a match yields either the rule specialised to its remaining
  antecedents or, for a one-antecedent rule, the derived fact. The new item is
  unasserted, supported by exactly the (fact, rule) pair, and goes back through
  adding.
- **Querying** (`kb_ask`): every stored fact the query statement unifies with,
  with its substitution; a query that is not a fact yields nothing.
- **Retraction** (`kb_retract`): the assertion is revoked, an entry is deleted
  only once nothing justifies it, and a deletion cascades: every support pair
  naming the deleted entry is stripped from the entries that remain, and those
  left without support are visited in turn.

Files, one module each (plus a two-line `Optional` module in `statements.dfy`):

| file | module | contents |
|---|---|---|
| statements.dfy | `Statements` | terms, statements, substitutions; a small stand-in for the unification service |
| entries.dfy | `Entries` | facts and rules as keyed entries, the knowledge base, lookup, the invariants |
| forward.dfy | `Forward` | `kb_add`, `kb_assert`, `fc_infer` |
| query.dfy | `Query` | `kb_ask` |
| retraction.dfy | `Retraction` | `kb_retract`, the cascade, the finding below |
| scenarios.dfy | `Scenarios` | a worked derivation and a worked query |

Representation. Facts and rules are compared structurally in the source, so an
entry is identified by a `Key` (`FactKey(statement)` or `RuleKey(rule)`) and a
support pair names its fact and rule by value. The back-reference lists
`supports_facts` / `supports_rules` are not stored: they mirror the support
pairs, so the cascade reaches the same dependents by stripping every pair that
names the deleted entry from every stored entry.

Invariant `Entries.Valid`: facts hold fact keys and rules hold rule keys with at
least one antecedent; no duplicates; every entry is asserted or supported; every
support pair names a fact and a rule that are stored.

Invariant `Forward.SoundSupport`: every support pair records a real firing, one
whose fact matches the rule's first antecedent and whose specialisation is the
entry holding the pair. Adding keeps it, and so does retraction, which never
gives an entry a pair it did not hold. With the rule that everything added
besides the caller's item arrives unasserted, this says every stored entry is
asserted by a caller or derived from stored entries.

The recursion between adding and inference has no termination argument in
general. Here it runs on an inference budget (`fuel`): each inference step costs
one unit and, once the budget is spent, the remaining pairings are skipped.
Every property of `Forward` holds for every budget.

## Model

| member | source | states |
|---|---|---|
| `Entries.Find` | student_code.py:32-34 | the position found holds the key and no earlier entry does; no position means the key is absent |
| `Entries.Lookup` | student_code.py:22-48 | the entry returned has the requested key and is stored; nothing is returned exactly when no stored entry is equal |
| `Forward.Merge` | student_code.py:63-70 | re-adding keeps the stored key and never revokes an assertion; a derived duplicate's pairs are all appended (support grows by exactly that multiset); an underived duplicate leaves the entry asserted |
| `Forward.Add` | student_code.py:50-83 | earlier entries keep their keys and order and only gain support; the item's justification is recorded; a duplicate changes only its stored entry and triggers no inference; a new item lands right after the old entries with the item's own assertion flag and, when budget is left at the end, its pairing with every counterpart has taken effect; every other entry it adds is unasserted (derived, never asserted); adding a new or a derived item never changes any entry's assertion flag; every support pair stored still records a firing that derives its entry; no duplicates are created; validity is preserved |
| `Forward.AddLoop` | student_code.py:58-75 | when budget is left at the end, the pairing of the new entry with every counterpart from the current position on, including counterparts appended meanwhile, has taken effect (what it derives is stored with its justification); the loop only extends the knowledge base, adds only unasserted entries, keeps every assertion flag, keeps every support pair a record of a real firing, and keeps validity |
| `Forward.Visit` | student_code.py:61-62 | one pairing of the new entry with a counterpart takes effect; a pairing that derives nothing changes nothing; it adds only unasserted entries, keeps assertion flags and keeps support sound |
| `Forward.Specialise` | student_code.py:210-224 | with several antecedents, the rule of the instantiated remaining antecedents (one fewer) and instantiated consequent; with one, the instantiated consequent as a fact |
| `Forward.Derive` | student_code.py:208-229 | no inference exactly when the fact does not match the first antecedent; otherwise the specialised item, unasserted, supported by exactly this (fact, rule) pair |
| `Forward.DeriveIsSpecialisation` | student_code.py:208-224 | on a ground fact, the derived item is the rule specialised by a substitution that turns its first antecedent into the fact |
| `Forward.Infer` | student_code.py:190-230 | a failed match changes nothing; a successful one leaves the derived item stored with this (fact, rule) pair among its support; every entry it adds is unasserted; no entry's assertion flag changes; every stored support pair still records a firing that derives its entry; validity is preserved |
| `Forward.Assert` | student_code.py:85-92 | after asserting a caller's fact or rule it is stored and asserted, the old entries are only extended, every other entry added is unasserted, support stays sound, and validity is preserved |
| `Forward.AssertAssertedNoop` | student_code.py:63-83 | asserting a fact or rule that is stored and asserted already leaves the knowledge base unchanged, on any budget |
| `Forward.AssertIdempotent` | student_code.py:58-70 | asserting the same item a second time changes nothing |
| `Query.Answers` | student_code.py:104-113 | every answer is a stored fact the query matched, with that substitution; every matching fact is answered; answers follow the order of the facts, and with no duplicate facts no fact is answered twice, so each matching fact yields exactly one answer |
| `Query.Ask` | student_code.py:94-117 | a rule query yields no answer; for a fact query, the answers are exactly the stored facts the query unifies with, each with its substitution, in the order the facts are stored; with no duplicate facts each is answered once |
| `Retraction.Strip` | student_code.py:146-151 | the support list keeps exactly the pairs that do not name the deleted entry |
| `Retraction.Orphans` | student_code.py:152-153 | exactly the entries whose support the stripping emptied are reported for a visit |
| `Retraction.Delete` | student_code.py:139-161 | deleting a stored entry removes exactly one entry; deleting an absent one changes nothing |
| `Retraction.RetractOne` | student_code.py:132-169 | absent item: nothing; fact without support: deleted; supported fact: only its assertion cleared; unasserted unsupported rule: deleted; other rule: nothing; no key appears, every other key keeps its presence and its assertion; with no duplicates a retracted fact is never asserted afterwards and a deleted entry is gone |
| `Retraction.DropIfUnjustified` | student_code.py:152-161 | a dependent is deleted when it is neither asserted nor supported, and otherwise left alone with nothing reported |
| `Retraction.Cascade` | student_code.py:145-186 | the cascade never adds a key and never gives an entry a pair it did not hold; from a state where every unjustified entry awaits a visit it ends valid, every pair whose fact and rule are still stored at the end is still held by its entry, and every surviving entry keeps its assertion flag (for the cascade as written, while the keys awaiting a visit have no support left); the corrected cascade keeps every assertion and every pair whose fact and rule are asserted, and keeps every self-justified set whole: a set whose members are each asserted or hold a derivation from members of the set stays stored and self-justified; the cascade as written does the same for a set whose facts are asserted only while unsupported, as long as each fact of the set awaiting a visit holds a derivation from the set |
| `Retraction.StepSurvival` | student_code.py:145-161 | one visit never takes a pair from an entry, nor deletes the entry, while the pair's fact and rule remain stored |
| `Retraction.StepPairsKept` | student_code.py:145-161 | one visit never gives an entry a support pair it did not hold |
| `Retraction.DropWithin` | student_code.py:145-161 | one visit of the corrected cascade keeps every self-justified set stored and self-justified: a member is asserted or supported, so it is never the entry deleted, and no pair between members names the one that is |
| `Retraction.RevokeWithin` | student_code.py:132-161 | one visit of the cascade as written keeps a set whose facts are asserted only while unsupported, when each fact of the set awaiting a visit holds a derivation from the set; the facts of the set that the visit orphans hold one too |
| `Retraction.CascadeFrame` | student_code.py:145-186 | a cascade whose work rests on the retracted entry changes no entry that does not rest on it, through a chain of derivations |
| `Retraction.Retract` | student_code.py:119-186 | absent item: nothing changes; supported fact: only its assertion is cleared; justified rule: nothing changes; unsupported fact, or unasserted unsupported rule: deleted; a retracted fact is never asserted afterwards; keeps every other assertion; on a valid knowledge base: keeps validity, no key appears, no entry gains a pair or changes its assertion flag except the retracted one, an entry holding a pair whose fact and rule remain stays with that pair, and every entry that does not rest, through a chain of derivations, on the retracted one is left exactly as it was; every self-justified set without the retracted entry (each member asserted or holding a derivation from members of the set, such as a support cycle that also rests on the retracted entry) stays stored and self-justified |
| `Retraction.RetractAsWritten` | student_code.py:119-186 | the code as written: the direct-call cases are those of `Retraction.Retract` (absent item: nothing; supported fact: only its assertion cleared; justified rule: nothing; unsupported fact or unasserted unsupported rule: deleted; the fact is not asserted afterwards); no key appears; on a valid knowledge base: keeps validity, no entry gains a pair or changes its assertion flag except the retracted one, an entry holding a pair whose fact and rule remain stays with that pair, and every entry that does not rest on the retracted one is left as it was; every set without the retracted entry whose members each hold a derivation from the set, or are an asserted rule or an asserted fact with no support, stays stored and keeps that property |
| `Retraction.AsWrittenAgrees` | student_code.py:145-161 | on a valid knowledge base where no fact is both asserted and supported, the retraction as written gives the same result as the corrected one |
| `Retraction.RetractSoundSupport` | student_code.py:119-186 | retraction, corrected or as written, keeps every stored support pair a record of a firing that derives its entry |
| `Retraction.RetractKeepsAssertedSupport` | student_code.py:145-161 | a derivation from an asserted fact and an asserted rule, neither of them retracted, survives, and so does the entry it supports |
| `Retraction.RetractSupportedFactTwice` | student_code.py:133-144 | a supported fact survives retraction unasserted, and retracting it again changes nothing |
| `Retraction.AsWrittenCascadeRevokesAssertion` | student_code.py:145-153 | on a concrete valid knowledge base, the cascade as written deletes an asserted fact, while the corrected retraction keeps it asserted |
| `Scenarios.ForwardChainExample` | student_code.py:58-62 | asserting P(?x) => Q(?x) and then P(a) stores P(a) and the derived Q(a), unasserted, supported by (P(a), the rule) |
| `Scenarios.AskExample` | student_code.py:104-117 | asking P(?x) of P(a), P(b), Q(a) answers ?x = a and ?x = b in order; a rule query answers nothing |

## Findings

| source | as written | input that shows it | evidently intended | confidence | as-written member | corrected member |
|---|---|---|---|---|---|---|
| student_code.py:152-153 | a dependent fact whose support the cascade empties gets the full `kb_retract`, which clears its `asserted` flag and deletes it | facts `a` (asserted) and `b` (asserted, supported by (`a`, `a => b`)), rule `a => b` (asserted); retract `a` | `b` stays, still asserted: an entry remains while it is asserted or supported | medium, not executed | `Retraction.RetractAsWritten` | `Retraction.Retract` |

`Retraction.AsWrittenCascadeRevokesAssertion` exhibits the input above, and
`Retraction.AsWrittenAgrees` shows that without a fact both asserted and
supported the two retractions agree. The
rest of the model uses the corrected `Retraction.Retract`, whose cascade
deletes a dependent only when it is neither asserted nor supported; the rule
path is unaffected, since the source's retraction of a rule already spares an
asserted one.

## Left out

- Printing, `verbose` and the `__repr__` / `__str__` methods (student_code.py:13-20, 57, 91, 103, 116): output only.
- The helper modules `util`, `logical_classes` and `read` are not part of this model. `match` and `instantiate` are replaced by the `Statements` stand-in (variables and constants, left-to-right test-and-bind, unbound variables kept). `factq` becomes the kind of the query key. `ListOfBindings` becomes a sequence of answers.
- A successful match always counts as a match in `kb_ask`; whether the source's truth test on an empty substitution object would drop it depends on `logical_classes`, which is not part of this model.
- The back-reference lists `supports_facts` / `supports_rules` are not stored; they are recovered from the support pairs.
- Forward.Add: runs on an inference budget; when the budget is spent, the pairings not yet made are skipped, so the pairing guarantee holds only when budget is left at the end. It covers the new item's own pairings; that every derivable consequence is eventually present (closure over the items derived in turn) is not stated.
- Retraction.Cascade: strips a deleted entry's pairs from all dependents at once and then visits the orphans, where the source strips and recurses dependent by dependent. The final knowledge base is the same in either order, since stripping only removes pairs; that confluence is not proved.
- Retraction.Retract: the survival of pairs whose fact and rule remain, the absence of new pairs, the unchanged assertion flags of the other entries and the untouched non-dependents are stated for valid knowledge bases (and for `Retraction.Cascade`, under its work-list invariant) only: with a duplicate entry a deletion strips the pairs naming a key that the other copy still holds, and a lookup then finds the other copy. The source's lists never hold duplicates.
- Retraction.RetractAsWritten: keeps a self-justified set whole only when none of its facts is asserted while also supported: the code as written deletes such a fact once the cascade empties its support (see Findings), so the set's own assertion does not hold it.
- Retraction.Cascade: for the cascade as written, the unchanged assertion flags are stated only while every key awaiting a visit has no support left; a retraction's own orphans always satisfy this, since stripping only empties support.
- The rule-from-rule cascade in the source looks the dependent rule up among the facts (student_code.py:182-183), which raises; the model strips and visits the rules list instead.
- The source removes pairs from a support list while iterating over it (student_code.py:147-151, 155-159), which can skip pairs; the model removes every matching pair.
- The source raises when a dependent it visits was already removed (`index` at student_code.py:149, 157, 174); the model skips an entry that is no longer stored.
- Forward.Derive: a rule with no antecedents derives nothing; the source would fail indexing its first antecedent. No stored rule is like that (`Entries.Valid`).
- Retracting an asserted rule is a no-op, as in the code (student_code.py:166); the rule path never clears an assertion.
- Mutable default constructor arguments (student_code.py:8): irrelevant to the logic.

=== FILE: entries.dfy ===
/** The knowledge base's records: facts and rules with their justification
    bookkeeping, and the two ordered collections that own them.

    Facts and rules are compared structurally (a fact by its statement, a rule
    by its antecedents and consequent), so every stored entry is identified by
    a `Key` and a support pair names the fact and the rule it came from by
    value rather than by reference. */
module Entries {
  import opened Optional
  import opened Statements

  /** A rule's content: antecedent statements and one consequent statement. */
  datatype Rule = Rule(lhs: seq<Statement>, rhs: Statement)

  /** The identity the knowledge base deduplicates on. */
  datatype Key = FactKey(statement: Statement) | RuleKey(rule: Rule)

  /** One derivation: the fact and the rule that fired together. */
  datatype Support = Support(fact: Statement, rule: Rule)

  /** A stored fact or rule: whether a caller asserted it directly, and every
      derivation that justifies it, in the order they were recorded. */
  datatype Item = Item(key: Key, asserted: bool, supportedBy: seq<Support>)

  /** The two insertion-ordered collections. */
  datatype KB = KB(facts: seq<Item>, rules: seq<Item>)

  /** The collection an entry with key `k` belongs in. */
  function Collection(kb: KB, k: Key): seq<Item> {
    if k.FactKey? then kb.facts else kb.rules
  }

  function WithCollection(kb: KB, k: Key, xs: seq<Item>): (r: KB)
    ensures Collection(r, k) == xs
    ensures k.FactKey? ==> r.rules == kb.rules
    ensures k.RuleKey? ==> r.facts == kb.facts
  {
    if k.FactKey? then kb.(facts := xs) else kb.(rules := xs)
  }

  function Size(kb: KB): nat {
    |kb.facts| + |kb.rules|
  }

  /** The position of the first entry with key `k`, the list scan behind the
      source's `in`, `index` and lookup helpers. */
  function Find(xs: seq<Item>, k: Key): (r: Option<nat>)
    ensures r.Some? ==> r.value < |xs| && xs[r.value].key == k
    ensures r.Some? ==> forall j :: 0 <= j < r.value ==> xs[j].key != k
    ensures r.None? ==> forall j :: 0 <= j < |xs| ==> xs[j].key != k
  {
    if |xs| == 0 then None
    else if xs[0].key == k then Some(0)
    else match Find(xs[1..], k)
      case None => None
      case Some(i) => Some(i + 1)
  }

  predicate Present(kb: KB, k: Key) {
    Find(Collection(kb, k), k).Some?
  }

  /** The stored entry equal to `k`, if any. */
  function Lookup(kb: KB, k: Key): (r: Option<Item>)
    ensures r.Some? ==> r.value.key == k && r.value in Collection(kb, k)
    ensures r.None? <==> forall j :: 0 <= j < |Collection(kb, k)| ==> Collection(kb, k)[j].key != k
    ensures r.Some? <==> Present(kb, k)
  {
    match Find(Collection(kb, k), k)
    case None => None
    case Some(i) => Some(Collection(kb, k)[i])
  }

  /** Replaces the entry stored under `k` by `e`. */
  function Update(kb: KB, k: Key, e: Item): KB {
    match Find(Collection(kb, k), k)
    case None => kb
    case Some(i) => WithCollection(kb, k, Collection(kb, k)[i := e])
  }

  predicate AssertedIn(kb: KB, k: Key) {
    match Lookup(kb, k)
    case None => false
    case Some(e) => e.asserted
  }

  // ----- Invariants -----

  predicate Distinct(xs: seq<Item>) {
    forall i, j :: 0 <= i < j < |xs| ==> xs[i].key != xs[j].key
  }

  /** Facts hold fact keys, rules hold rule keys with at least one antecedent. */
  predicate WellKinded(kb: KB) {
    && (forall i :: 0 <= i < |kb.facts| ==> kb.facts[i].key.FactKey?)
    && (forall i :: 0 <= i < |kb.rules| ==> kb.rules[i].key.RuleKey? && |kb.rules[i].key.rule.lhs| > 0)
  }

  /** An entry may stay only while asserted or supported. */
  predicate Justified(e: Item) {
    e.asserted || |e.supportedBy| > 0
  }

  predicate AllJustified(kb: KB) {
    && (forall i :: 0 <= i < |kb.facts| ==> Justified(kb.facts[i]))
    && (forall i :: 0 <= i < |kb.rules| ==> Justified(kb.rules[i]))
  }

  /** The fact and the rule that pair `p` names are both stored. */
  predicate PairLive(kb: KB, p: Support) {
    Present(kb, FactKey(p.fact)) && Present(kb, RuleKey(p.rule))
  }

  /** Every pair names a fact and a rule that are currently stored. */
  predicate RefsLive(kb: KB, s: seq<Support>) {
    forall p :: p in s ==> PairLive(kb, p)
  }

  /** Entry `x` is stored and holds pair `p`. */
  predicate Supports(kb: KB, x: Key, p: Support) {
    Present(kb, x) && p in Lookup(kb, x).value.supportedBy
  }

  predicate Closed(kb: KB) {
    && (forall i :: 0 <= i < |kb.facts| ==> RefsLive(kb, kb.facts[i].supportedBy))
    && (forall i :: 0 <= i < |kb.rules| ==> RefsLive(kb, kb.rules[i].supportedBy))
  }

  /** No two stored facts, and no two stored rules, are equal. */
  predicate NoDuplicates(kb: KB) {
    Distinct(kb.facts) && Distinct(kb.rules)
  }

  predicate Valid(kb: KB) {
    && WellKinded(kb)
    && NoDuplicates(kb)
    && AllJustified(kb)
    && Closed(kb)
  }

  // ----- Growth: what adding may do to the entries already stored -----

  /** Same key; an assertion is never revoked; support is only appended to. */
  predicate Grows(e: Item, e': Item) {
    && e'.key == e.key
    && (e.asserted ==> e'.asserted)
    && e.supportedBy <= e'.supportedBy
  }

  predicate ItemsExtend(xs: seq<Item>, ys: seq<Item>) {
    |xs| <= |ys| && forall i :: 0 <= i < |xs| ==> Grows(xs[i], ys[i])
  }

  predicate Extends(a: KB, b: KB) {
    ItemsExtend(a.facts, b.facts) && ItemsExtend(a.rules, b.rules)
  }

  /** Every entry stored before keeps its assertion flag, position by
      position. */
  predicate KeepsFlags(xs: seq<Item>, ys: seq<Item>) {
    |xs| <= |ys| && forall i :: 0 <= i < |xs| ==> ys[i].asserted == xs[i].asserted
  }

  predicate FlagsKept(a: KB, b: KB) {
    KeepsFlags(a.facts, b.facts) && KeepsFlags(a.rules, b.rules)
  }

  lemma FlagsKeptTransitive(a: KB, b: KB, c: KB)
    requires FlagsKept(a, b) && FlagsKept(b, c)
    ensures FlagsKept(a, c)
  {
  }

  /** Every entry `ys` holds past the positions `xs` fills is unasserted,
      except an entry with key `except` when one is given. */
  predicate NewUnasserted(xs: seq<Item>, ys: seq<Item>, except: Option<Key>) {
    forall i :: |xs| <= i < |ys| && except != Some(ys[i].key) ==> !ys[i].asserted
  }

  /** Every entry added since `a` was derived, not asserted by a caller,
      except possibly the one with key `except`. */
  predicate AddedUnasserted(a: KB, b: KB, except: Option<Key>) {
    NewUnasserted(a.facts, b.facts, except) && NewUnasserted(a.rules, b.rules, except)
  }

  /** Growth that keeps the flags and adds only unasserted entries keeps
      what was added before unasserted. */
  lemma AddedUnassertedTransitive(a: KB, b: KB, c: KB, except: Option<Key>)
    requires Extends(a, b) && Extends(b, c) && FlagsKept(b, c)
    requires AddedUnasserted(a, b, except) && AddedUnasserted(b, c, None)
    ensures AddedUnasserted(a, c, except)
  {
    forall i | |a.facts| <= i < |c.facts| && except != Some(c.facts[i].key)
      ensures !c.facts[i].asserted
    {
      if i < |b.facts| {
        assert Grows(b.facts[i], c.facts[i]);
      }
    }
    forall i | |a.rules| <= i < |c.rules| && except != Some(c.rules[i].key)
      ensures !c.rules[i].asserted
    {
      if i < |b.rules| {
        assert Grows(b.rules[i], c.rules[i]);
      }
    }
  }

  /** A growth that keeps the flags keeps the assertion of every stored key. */
  lemma FlagsKeptLookup(a: KB, b: KB, k: Key)
    requires Extends(a, b) && FlagsKept(a, b) && Present(a, k)
    ensures AssertedIn(b, k) == AssertedIn(a, k)
  {
    FindExtends(Collection(a, k), Collection(b, k), k);
  }

  lemma ExtendsTransitive(a: KB, b: KB, c: KB)
    requires Extends(a, b) && Extends(b, c)
    ensures Extends(a, c)
  {
    forall i | 0 <= i < |a.facts|
      ensures Grows(a.facts[i], c.facts[i])
    {
      assert Grows(b.facts[i], c.facts[i]);
    }
    forall i | 0 <= i < |a.rules|
      ensures Grows(a.rules[i], c.rules[i])
    {
      assert Grows(b.rules[i], c.rules[i]);
    }
  }

  /** An entry found before growth is found at the same place after it. */
  lemma FindExtends(xs: seq<Item>, ys: seq<Item>, k: Key)
    requires ItemsExtend(xs, ys)
    requires Find(xs, k).Some?
    ensures Find(ys, k) == Find(xs, k)
  {
    var i := Find(xs, k).value;
    assert ys[i].key == k;
  }

  lemma LookupExtends(a: KB, b: KB, k: Key)
    requires Extends(a, b) && Present(a, k)
    ensures Present(b, k)
    ensures Grows(Lookup(a, k).value, Lookup(b, k).value)
  {
    FindExtends(Collection(a, k), Collection(b, k), k);
  }

  lemma RefsLiveExtends(a: KB, b: KB, s: seq<Support>)
    requires Extends(a, b) && RefsLive(a, s)
    ensures RefsLive(b, s)
  {
    forall p | p in s
      ensures PairLive(b, p)
    {
      LookupExtends(a, b, FactKey(p.fact));
      LookupExtends(a, b, RuleKey(p.rule));
    }
  }

  /** Every stored entry is found by its own key. */
  lemma FindMember(xs: seq<Item>, i: nat)
    requires i < |xs|
    ensures Find(xs, xs[i].key).Some?
  {
  }

  /** In a duplicate-free collection, the entry at `i` is the one found. */
  lemma FindDistinct(xs: seq<Item>, i: nat)
    requires Distinct(xs) && i < |xs|
    ensures Find(xs, xs[i].key) == Some(i)
  {
  }
}

=== FILE: forward.dfy ===
/** Adding knowledge and forward chaining: `KnowledgeBase.kb_add`,
    `kb_assert` and `InferenceEngine.fc_infer` of student_code.py.

    Adding a new fact pairs it with every stored rule, adding a new rule pairs
    it with every stored fact, and each successful pairing adds the derived
    fact or rule in turn. That recursion has no termination argument in
    general, so it runs here on an inference budget: every call of the
    inference step costs one unit, and once the budget is spent the remaining
    pairings are skipped. Every property below holds whatever the budget. */
module Forward {
  import opened Optional
  import opened Statements
  import opened Entries

  /** A knowledge base with the inference budget still unspent. */
  datatype Run = Run(kb: KB, fuel: nat)

  /** What every item that reaches `Add` satisfies: it is justified, its
      support names stored entries, and a rule has an antecedent. */
  predicate Admissible(kb: KB, item: Item) {
    && Justified(item)
    && RefsLive(kb, item.supportedBy)
    && (item.key.RuleKey? ==> |item.key.rule.lhs| > 0)
  }

  /** The stored entry for `item` carries `item`'s justification: each of its
      support pairs, and the assertion of an unsupported item. */
  predicate Holds(kb: KB, item: Item) {
    match Lookup(kb, item.key)
    case None => false
    case Some(e) =>
      && (forall p :: p in item.supportedBy ==> p in e.supportedBy)
      && (item.asserted && |item.supportedBy| == 0 ==> e.asserted)
  }

  /** Re-adding an item equal to a stored one: a derived duplicate hands its
      support pairs over, an underived one marks the stored entry asserted. */
  function Merge(e: Item, incoming: Item): (r: Item)
    ensures Grows(e, r)
    ensures forall p :: p in incoming.supportedBy ==> p in r.supportedBy
    ensures multiset(r.supportedBy) == multiset(e.supportedBy) + multiset(incoming.supportedBy)
    ensures |incoming.supportedBy| == 0 ==> r.asserted
    ensures |incoming.supportedBy| > 0 ==> r.asserted == e.asserted
  {
    if |incoming.supportedBy| > 0 then e.(supportedBy := e.supportedBy + incoming.supportedBy)
    else e.(asserted := true)
  }

  /** The rule specialised by `b`: with several antecedents, the remaining
      ones and the consequent instantiated; with one, the instantiated
      consequent as a fact. */
  function Specialise(rule: Rule, b: Bindings): (k: Key)
    requires |rule.lhs| > 0
    ensures |rule.lhs| == 1 <==> k.FactKey?
    ensures k.FactKey? ==> k.statement == Instantiate(rule.rhs, b)
    ensures k.RuleKey? ==>
      && |k.rule.lhs| == |rule.lhs| - 1
      && (forall i :: 0 <= i < |k.rule.lhs| ==> k.rule.lhs[i] == Instantiate(rule.lhs[i + 1], b))
      && k.rule.rhs == Instantiate(rule.rhs, b)
  {
    if |rule.lhs| > 1 then
      RuleKey(Rule(seq(|rule.lhs| - 1, i requires 0 <= i < |rule.lhs| - 1 => Instantiate(rule.lhs[i + 1], b)),
                   Instantiate(rule.rhs, b)))
    else
      FactKey(Instantiate(rule.rhs, b))
  }

  /** One inference step without its effect on the knowledge base: the fact is
      matched against the rule's first antecedent, and a match yields the
      specialised rule or derived fact, unasserted and supported by exactly
      this (fact, rule) pair. A rule without antecedents derives nothing (the
      source would fail indexing it; no stored rule is like that). */
  function Derive(fact: Statement, rule: Rule): (r: Option<Item>)
    ensures r.None? <==> |rule.lhs| == 0 || Match(fact, rule.lhs[0]).None?
    ensures r.Some? ==> !r.value.asserted && r.value.supportedBy == [Support(fact, rule)]
    ensures r.Some? ==> r.value.key == Specialise(rule, Match(fact, rule.lhs[0]).value)
  {
    if |rule.lhs| == 0 then None
    else match Match(fact, rule.lhs[0])
      case None => None
      case Some(b) => Some(Item(Specialise(rule, b), false, [Support(fact, rule)]))
  }

  /** A firing on a ground fact is sound: the derived item is the rule
      specialised by a substitution that turns its first antecedent into the
      fact. */
  lemma DeriveIsSpecialisation(fact: Statement, rule: Rule)
    requires Ground(fact)
    requires Derive(fact, rule).Some?
    ensures |rule.lhs| > 0
    ensures exists b :: Instantiate(rule.lhs[0], b) == fact && Derive(fact, rule).value.key == Specialise(rule, b)
  {
    var b := Match(fact, rule.lhs[0]).value;
    MatchGroundSound(fact, rule.lhs[0]);
    assert Instantiate(rule.lhs[0], b) == fact;
  }

  /** Pair `p` records a firing that derives the entry with key `k`. */
  predicate Fires(p: Support, k: Key) {
    Derive(p.fact, p.rule).Some? && Derive(p.fact, p.rule).value.key == k
  }

  /** Every support pair of `e` records a firing that derives `e`. */
  predicate FiredBy(e: Item) {
    forall p :: p in e.supportedBy ==> Fires(p, e.key)
  }

  /** Every support pair stored anywhere records a firing that derives the
      entry holding it: support comes only from inference. */
  predicate SoundSupport(kb: KB) {
    && (forall i :: 0 <= i < |kb.facts| ==> FiredBy(kb.facts[i]))
    && (forall i :: 0 <= i < |kb.rules| ==> FiredBy(kb.rules[i]))
  }

  /** The inference that pairing entry `k` with counterpart `c` attempts:
      whichever of the two is the fact fires against whichever is the rule. */
  function Pairing(k: Key, c: Key): Option<Item> {
    match (k, c)
    case (FactKey(s), RuleKey(rule)) => Derive(s, rule)
    case (RuleKey(rule), FactKey(s)) => Derive(s, rule)
    case _ => None
  }

  /** The pairing of `k` with `c` has taken effect: whatever it derives is
      stored with its justification. */
  predicate Paired(kb: KB, k: Key, c: Key) {
    Pairing(k, c).Some? ==> Holds(kb, Pairing(k, c).value)
  }

  /** Growth keeps the effect of a pairing. */
  lemma PairedExtends(a: KB, b: KB, k: Key, c: Key)
    requires Extends(a, b) && Paired(a, k, c)
    ensures Paired(b, k, c)
  {
    if Pairing(k, c).Some? {
      LookupExtends(a, b, Pairing(k, c).value.key);
    }
  }

  /** `kb_add`: a new item is appended to its collection and then paired, in
      order, with every counterpart; a duplicate is merged into the stored
      entry and nothing is inferred. */
  function Add(kb: KB, item: Item, fuel: nat): (r: Run)
    ensures r.fuel <= fuel
    ensures Extends(kb, r.kb)
    ensures Holds(r.kb, item)
    ensures Present(kb, item.key) ==>
      r == Run(Update(kb, item.key, Merge(Lookup(kb, item.key).value, item)), fuel)
    ensures !Present(kb, item.key) ==>
      && |Collection(r.kb, item.key)| > |Collection(kb, item.key)|
      && Collection(r.kb, item.key)[|Collection(kb, item.key)|].key == item.key
    ensures !Present(kb, item.key) && r.fuel > 0 ==>
      forall j :: 0 <= j < |Counterparts(r.kb, item.key)| ==>
        Paired(r.kb, item.key, Counterparts(r.kb, item.key)[j].key)
    ensures !Present(kb, item.key) || |item.supportedBy| > 0 ==> FlagsKept(kb, r.kb)
    ensures !Present(kb, item.key) ==> AssertedIn(r.kb, item.key) == item.asserted
    ensures AddedUnasserted(kb, r.kb, Some(item.key))
    ensures !item.asserted ==> AddedUnasserted(kb, r.kb, None)
    ensures SoundSupport(kb) && FiredBy(item) ==> SoundSupport(r.kb)
    ensures NoDuplicates(kb) ==> NoDuplicates(r.kb)
    ensures Valid(kb) && Admissible(kb, item) ==> Valid(r.kb)
    decreases fuel, 4
  {
    var xs := Collection(kb, item.key);
    match Find(xs, item.key)
    case Some(i) =>
      var kb' := WithCollection(kb, item.key, xs[i := Merge(xs[i], item)]);
      MergeProperties(kb, item, i);
      MergeValid(kb, item, i);
      Run(kb', fuel)
    case None =>
      AddNew(kb, item, fuel)
  }

  /** The new-item branch of `kb_add`: the item is appended after the
      entries of its kind, then paired with every counterpart. */
  function AddNew(kb: KB, item: Item, fuel: nat): (r: Run)
    requires !Present(kb, item.key)
    ensures r.fuel <= fuel
    ensures Extends(kb, r.kb)
    ensures Holds(r.kb, item)
    ensures |Collection(r.kb, item.key)| > |Collection(kb, item.key)|
    ensures Collection(r.kb, item.key)[|Collection(kb, item.key)|].key == item.key
    ensures r.fuel > 0 ==>
      forall j :: 0 <= j < |Counterparts(r.kb, item.key)| ==>
        Paired(r.kb, item.key, Counterparts(r.kb, item.key)[j].key)
    ensures FlagsKept(kb, r.kb)
    ensures AssertedIn(r.kb, item.key) == item.asserted
    ensures AddedUnasserted(kb, r.kb, Some(item.key))
    ensures !item.asserted ==> AddedUnasserted(kb, r.kb, None)
    ensures SoundSupport(kb) && FiredBy(item) ==> SoundSupport(r.kb)
    ensures NoDuplicates(kb) ==> NoDuplicates(r.kb)
    ensures Valid(kb) && Admissible(kb, item) ==> Valid(r.kb)
    decreases fuel, 3
  {
    AddNewGrowth(kb, item, fuel);
    AddNewFlags(kb, item, fuel);
    AddNewAdded(kb, item, fuel);
    AddLoop(WithCollection(kb, item.key, Collection(kb, item.key) + [item]), item.key, 0, fuel)
  }

  lemma AddNewGrowth(kb: KB, item: Item, fuel: nat)
    requires !Present(kb, item.key)
    ensures var kb' := WithCollection(kb, item.key, Collection(kb, item.key) + [item]);
      var r := AddLoop(kb', item.key, 0, fuel);
      && Extends(kb, r.kb)
      && Holds(r.kb, item)
      && |Collection(r.kb, item.key)| > |Collection(kb, item.key)|
      && Collection(r.kb, item.key)[|Collection(kb, item.key)|].key == item.key
    decreases fuel, 2
  {
    var kb' := WithCollection(kb, item.key, Collection(kb, item.key) + [item]);
    AppendProperties(kb, item);
    var r := AddLoop(kb', item.key, 0, fuel);
    ExtendsTransitive(kb, kb', r.kb);
    LookupExtends(kb', r.kb, item.key);
  }

  lemma AddNewFlags(kb: KB, item: Item, fuel: nat)
    requires !Present(kb, item.key)
    ensures var kb' := WithCollection(kb, item.key, Collection(kb, item.key) + [item]);
      var r := AddLoop(kb', item.key, 0, fuel);
      && FlagsKept(kb, r.kb)
      && AssertedIn(r.kb, item.key) == item.asserted
    decreases fuel, 2
  {
    var kb' := WithCollection(kb, item.key, Collection(kb, item.key) + [item]);
    AppendProperties(kb, item);
    var r := AddLoop(kb', item.key, 0, fuel);
    FlagsKeptTransitive(kb, kb', r.kb);
    FlagsKeptLookup(kb', r.kb, item.key);
  }

  lemma AddNewAdded(kb: KB, item: Item, fuel: nat)
    requires !Present(kb, item.key)
    ensures var kb' := WithCollection(kb, item.key, Collection(kb, item.key) + [item]);
      var r := AddLoop(kb', item.key, 0, fuel);
      && AddedUnasserted(kb, r.kb, Some(item.key))
      && (!item.asserted ==> AddedUnasserted(kb, r.kb, None))
      && (SoundSupport(kb) && FiredBy(item) ==> SoundSupport(r.kb))
      && (NoDuplicates(kb) ==> NoDuplicates(r.kb))
      && (Valid(kb) && Admissible(kb, item) ==> Valid(r.kb))
    decreases fuel, 2
  {
    var kb' := WithCollection(kb, item.key, Collection(kb, item.key) + [item]);
    AppendProperties(kb, item);
    AppendValid(kb, item);
    var r := AddLoop(kb', item.key, 0, fuel);
    AddedUnassertedTransitive(kb, kb', r.kb, Some(item.key));
    if !item.asserted {
      AddedUnassertedTransitive(kb, kb', r.kb, None);
    }
  }

  /** The counterparts a new entry is paired with. */
  function Counterparts(kb: KB, k: Key): seq<Item> {
    if k.FactKey? then kb.rules else kb.facts
  }

  /** The loop over counterparts in `kb_add`. The collection is read afresh
      at every step, so entries appended by earlier steps are visited too, as
      Python's iteration over a growing list does. */
  function AddLoop(kb: KB, k: Key, i: nat, fuel: nat): (r: Run)
    ensures r.fuel <= fuel
    ensures Extends(kb, r.kb)
    ensures FlagsKept(kb, r.kb)
    ensures r.fuel > 0 ==>
      forall j :: i <= j < |Counterparts(r.kb, k)| ==> Paired(r.kb, k, Counterparts(r.kb, k)[j].key)
    ensures AddedUnasserted(kb, r.kb, None)
    ensures SoundSupport(kb) ==> SoundSupport(r.kb)
    ensures NoDuplicates(kb) ==> NoDuplicates(r.kb)
    ensures Valid(kb) && Present(kb, k) ==> Valid(r.kb)
    decreases fuel, 0
  {
    var cs := Counterparts(kb, k);
    if fuel == 0 || i >= |cs| then Run(kb, fuel)
    else
      var c := cs[i].key;
      FindMember(cs, i);
      var step := Visit(kb, k, c, fuel - 1);
      var r := AddLoop(step.kb, k, i + 1, step.fuel);
      ExtendsTransitive(kb, step.kb, r.kb);
      FlagsKeptTransitive(kb, step.kb, r.kb);
      AddedUnassertedTransitive(kb, step.kb, r.kb, None);
      PairedFrom(step.kb, r.kb, k, i, c, r.fuel > 0);
      if Present(kb, k) then LookupExtends(kb, step.kb, k); r else r
  }

  /** One turn of the loop: the new entry `k` paired with counterpart `c`. */
  function Visit(kb: KB, k: Key, c: Key, fuel: nat): (r: Run)
    ensures r.fuel <= fuel
    ensures Extends(kb, r.kb)
    ensures FlagsKept(kb, r.kb)
    ensures Paired(r.kb, k, c)
    ensures Pairing(k, c).None? ==> r == Run(kb, fuel)
    ensures AddedUnasserted(kb, r.kb, None)
    ensures SoundSupport(kb) ==> SoundSupport(r.kb)
    ensures NoDuplicates(kb) ==> NoDuplicates(r.kb)
    ensures Valid(kb) && Present(kb, k) && Present(kb, c) ==> Valid(r.kb)
    decreases fuel, 6
  {
    match (k, c)
    case (FactKey(s), RuleKey(rule)) => Infer(kb, s, rule, fuel)
    case (RuleKey(rule), FactKey(s)) => Infer(kb, s, rule, fuel)
    case _ => Run(kb, fuel)
  }

  /** Pairing with the counterpart at `i` took effect before the rest of
      the loop, so it still holds after it. */
  lemma PairedFrom(a: KB, b: KB, k: Key, i: nat, c: Key, done: bool)
    requires Extends(a, b) && Paired(a, k, c)
    requires i < |Counterparts(a, k)| && Counterparts(a, k)[i].key == c
    requires done ==> forall j :: i + 1 <= j < |Counterparts(b, k)| ==> Paired(b, k, Counterparts(b, k)[j].key)
    ensures done ==> forall j :: i <= j < |Counterparts(b, k)| ==> Paired(b, k, Counterparts(b, k)[j].key)
  {
    PairedExtends(a, b, k, c);
    assert Counterparts(b, k)[i].key == c;
  }

  /** `fc_infer`: one inference step, whose result goes back through `Add`. */
  function Infer(kb: KB, fact: Statement, rule: Rule, fuel: nat): (r: Run)
    ensures r.fuel <= fuel
    ensures Extends(kb, r.kb)
    ensures Derive(fact, rule).None? ==> r == Run(kb, fuel)
    ensures Derive(fact, rule).Some? ==> Holds(r.kb, Derive(fact, rule).value)
    ensures FlagsKept(kb, r.kb)
    ensures AddedUnasserted(kb, r.kb, None)
    ensures SoundSupport(kb) ==> SoundSupport(r.kb)
    ensures NoDuplicates(kb) ==> NoDuplicates(r.kb)
    ensures Valid(kb) && Present(kb, FactKey(fact)) && Present(kb, RuleKey(rule)) ==> Valid(r.kb)
    decreases fuel, 5
  {
    match Derive(fact, rule)
    case None => Run(kb, fuel)
    case Some(d) =>
      DeriveAdmissible(kb, fact, rule);
      Add(kb, d, fuel)
  }

  /** A derived item records its own firing and, when the fact and the rule
      are stored, may be added. */
  lemma DeriveAdmissible(kb: KB, fact: Statement, rule: Rule)
    requires Derive(fact, rule).Some?
    ensures FiredBy(Derive(fact, rule).value)
    ensures Present(kb, FactKey(fact)) && Present(kb, RuleKey(rule)) ==> Admissible(kb, Derive(fact, rule).value)
  {
    var d := Derive(fact, rule).value;
    assert d.supportedBy == [Support(fact, rule)];
    assert Support(fact, rule) in d.supportedBy;
  }

  /** `kb_assert` of an item a caller built: a fresh fact or rule is
      asserted and carries no support. */
  function Assert(kb: KB, k: Key, fuel: nat): (r: KB)
    ensures Extends(kb, r)
    ensures AssertedIn(r, k)
    ensures AddedUnasserted(kb, r, Some(k))
    ensures SoundSupport(kb) ==> SoundSupport(r)
    ensures Valid(kb) && (k.RuleKey? ==> |k.rule.lhs| > 0) ==> Valid(r)
  {
    Add(kb, Item(k, true, []), fuel).kb
  }

  /** Asserting an item that is stored and asserted already changes nothing,
      whatever the budget: no pairing is redone. */
  lemma AssertAssertedNoop(kb: KB, k: Key, fuel: nat)
    requires AssertedIn(kb, k)
    ensures Assert(kb, k, fuel) == kb
  {
    var xs := Collection(kb, k);
    var i := Find(xs, k).value;
    assert Merge(xs[i], Item(k, true, [])) == xs[i];
    assert xs[i := xs[i]] == xs;
  }

  /** Asserting the same item twice is the same as asserting it once. */
  lemma AssertIdempotent(kb: KB, k: Key, fuel: nat, fuel': nat)
    ensures Assert(Assert(kb, k, fuel), k, fuel') == Assert(kb, k, fuel)
  {
    AssertAssertedNoop(Assert(kb, k, fuel), k, fuel');
  }

  // ----- Proof helpers for Add -----

  lemma MergeProperties(kb: KB, item: Item, i: nat)
    requires Find(Collection(kb, item.key), item.key) == Some(i)
    ensures var kb' := WithCollection(kb, item.key, Collection(kb, item.key)[i := Merge(Collection(kb, item.key)[i], item)]);
      && Extends(kb, kb')
      && Holds(kb', item)
      && |kb'.facts| == |kb.facts| && |kb'.rules| == |kb.rules|
      && (|item.supportedBy| > 0 ==> FlagsKept(kb, kb'))
      && (SoundSupport(kb) && FiredBy(item) ==> SoundSupport(kb'))
      && (NoDuplicates(kb) ==> NoDuplicates(kb'))
  {
    var xs := Collection(kb, item.key);
    var e' := Merge(xs[i], item);
    var kb' := WithCollection(kb, item.key, xs[i := e']);
    assert ItemsExtend(xs, xs[i := e']);
    assert Extends(kb, kb');
    assert Find(Collection(kb', item.key), item.key) == Some(i) by {
      FindExtends(xs, xs[i := e'], item.key);
    }
    MergeAdded(kb, item, i);
  }

  lemma MergeAdded(kb: KB, item: Item, i: nat)
    requires Find(Collection(kb, item.key), item.key) == Some(i)
    ensures var kb' := WithCollection(kb, item.key, Collection(kb, item.key)[i := Merge(Collection(kb, item.key)[i], item)]);
      && (SoundSupport(kb) && FiredBy(item) ==> SoundSupport(kb'))
      && (NoDuplicates(kb) ==> NoDuplicates(kb'))
  {
    var xs := Collection(kb, item.key);
    var e' := Merge(xs[i], item);
    assert e'.key == xs[i].key == item.key;
    assert forall j :: 0 <= j < |xs| ==> xs[i := e'][j].key == xs[j].key;
  }

  lemma MergeValid(kb: KB, item: Item, i: nat)
    requires Find(Collection(kb, item.key), item.key) == Some(i)
    ensures var kb' := WithCollection(kb, item.key, Collection(kb, item.key)[i := Merge(Collection(kb, item.key)[i], item)]);
      Valid(kb) && Admissible(kb, item) ==> Valid(kb')
  {
    if Valid(kb) && Admissible(kb, item) {
      MergeProperties(kb, item, i);
      MergeShape(kb, item, i);
      MergeClosed(kb, item, i);
    }
  }

  lemma MergeShape(kb: KB, item: Item, i: nat)
    requires Find(Collection(kb, item.key), item.key) == Some(i)
    requires Valid(kb) && Admissible(kb, item)
    ensures var kb' := WithCollection(kb, item.key, Collection(kb, item.key)[i := Merge(Collection(kb, item.key)[i], item)]);
      WellKinded(kb') && AllJustified(kb')
  {
    var xs := Collection(kb, item.key);
    var e' := Merge(xs[i], item);
    var kb' := WithCollection(kb, item.key, xs[i := e']);
    if item.key.FactKey? {
      assert kb'.facts == kb.facts[i := e'] && kb'.rules == kb.rules;
    } else {
      assert kb'.rules == kb.rules[i := e'] && kb'.facts == kb.facts;
    }
  }

  lemma MergeClosed(kb: KB, item: Item, i: nat)
    requires Find(Collection(kb, item.key), item.key) == Some(i)
    requires Valid(kb) && Admissible(kb, item)
    ensures var kb' := WithCollection(kb, item.key, Collection(kb, item.key)[i := Merge(Collection(kb, item.key)[i], item)]);
      Closed(kb')
  {
    var xs := Collection(kb, item.key);
    var e' := Merge(xs[i], item);
    var kb' := WithCollection(kb, item.key, xs[i := e']);
    MergeProperties(kb, item, i);
    RefsLiveExtends(kb, kb', item.supportedBy);
    forall j | 0 <= j < |kb'.facts|
      ensures RefsLive(kb', kb'.facts[j].supportedBy)
    {
      if item.key.FactKey? && j == i {
        RefsLiveExtends(kb, kb', xs[i].supportedBy);
      } else {
        RefsLiveExtends(kb, kb', kb.facts[j].supportedBy);
      }
    }
    forall j | 0 <= j < |kb'.rules|
      ensures RefsLive(kb', kb'.rules[j].supportedBy)
    {
      if item.key.RuleKey? && j == i {
        RefsLiveExtends(kb, kb', xs[i].supportedBy);
      } else {
        RefsLiveExtends(kb, kb', kb.rules[j].supportedBy);
      }
    }
  }

  lemma AppendProperties(kb: KB, item: Item)
    requires Find(Collection(kb, item.key), item.key).None?
    ensures var kb' := WithCollection(kb, item.key, Collection(kb, item.key) + [item]);
      && Extends(kb, kb')
      && Find(Collection(kb', item.key), item.key) == Some(|Collection(kb, item.key)|)
      && Holds(kb', item)
      && FlagsKept(kb, kb')
      && AddedUnasserted(kb, kb', Some(item.key))
      && (!item.asserted ==> AddedUnasserted(kb, kb', None))
      && (SoundSupport(kb) && FiredBy(item) ==> SoundSupport(kb'))
      && (NoDuplicates(kb) ==> NoDuplicates(kb'))
  {
    var xs := Collection(kb, item.key);
    var kb' := WithCollection(kb, item.key, xs + [item]);
    assert ItemsExtend(xs, xs + [item]);
    assert Extends(kb, kb');
    assert (xs + [item])[|xs|] == item;
    AppendAdded(kb, item);
  }

  lemma AppendAdded(kb: KB, item: Item)
    requires Find(Collection(kb, item.key), item.key).None?
    ensures var kb' := WithCollection(kb, item.key, Collection(kb, item.key) + [item]);
      && AddedUnasserted(kb, kb', Some(item.key))
      && (!item.asserted ==> AddedUnasserted(kb, kb', None))
      && (SoundSupport(kb) && FiredBy(item) ==> SoundSupport(kb'))
      && (NoDuplicates(kb) ==> NoDuplicates(kb'))
  {
    var xs := Collection(kb, item.key);
    assert (xs + [item])[|xs|] == item;
    if item.key.FactKey? {
      assert forall j :: 0 <= j < |xs| ==> (xs + [item])[j] == xs[j];
    } else {
      assert forall j :: 0 <= j < |xs| ==> (xs + [item])[j] == xs[j];
    }
  }

  lemma AppendValid(kb: KB, item: Item)
    requires Find(Collection(kb, item.key), item.key).None?
    ensures var kb' := WithCollection(kb, item.key, Collection(kb, item.key) + [item]);
      Valid(kb) && Admissible(kb, item) ==> Valid(kb')
  {
    if Valid(kb) && Admissible(kb, item) {
      AppendProperties(kb, item);
      AppendShape(kb, item);
      AppendClosed(kb, item);
    }
  }

  lemma AppendShape(kb: KB, item: Item)
    requires Find(Collection(kb, item.key), item.key).None?
    requires Valid(kb) && Admissible(kb, item)
    ensures var kb' := WithCollection(kb, item.key, Collection(kb, item.key) + [item]);
      WellKinded(kb') && AllJustified(kb')
  {
    var kb' := WithCollection(kb, item.key, Collection(kb, item.key) + [item]);
    if item.key.FactKey? {
      assert kb'.facts == kb.facts + [item] && kb'.rules == kb.rules;
    } else {
      assert kb'.rules == kb.rules + [item] && kb'.facts == kb.facts;
    }
  }

  lemma AppendClosed(kb: KB, item: Item)
    requires Find(Collection(kb, item.key), item.key).None?
    requires Valid(kb) && Admissible(kb, item)
    ensures var kb' := WithCollection(kb, item.key, Collection(kb, item.key) + [item]);
      Closed(kb')
  {
    var xs := Collection(kb, item.key);
    var kb' := WithCollection(kb, item.key, xs + [item]);
    AppendProperties(kb, item);
    RefsLiveExtends(kb, kb', item.supportedBy);
    forall j | 0 <= j < |kb'.facts|
      ensures RefsLive(kb', kb'.facts[j].supportedBy)
    {
      if item.key.FactKey? && j == |xs| {
      } else {
        RefsLiveExtends(kb, kb', kb.facts[j].supportedBy);
      }
    }
    forall j | 0 <= j < |kb'.rules|
      ensures RefsLive(kb', kb'.rules[j].supportedBy)
    {
      if item.key.RuleKey? && j == |xs| {
      } else {
        RefsLiveExtends(kb, kb', kb.rules[j].supportedBy);
      }
    }
  }
}

=== FILE: query.dfy ===
/** Querying: `KnowledgeBase.kb_ask` of student_code.py. */
module Query {
  import opened Optional
  import opened Statements
  import opened Entries

  /** One answer: the substitution that unified the query with a stored fact,
      and that fact. */
  datatype Answer = Answer(bindings: Bindings, fact: Item)

  /** The facts of `xs`, in order, whose statement the query statement
      matches, each with its substitution. */
  function Answers(xs: seq<Item>, q: Statement): (r: seq<Answer>)
    ensures |r| <= |xs|
    ensures forall a :: a in r ==>
      a.fact in xs && a.fact.key.FactKey? && Match(q, a.fact.key.statement) == Some(a.bindings)
    ensures forall e :: e in xs && e.key.FactKey? && Match(q, e.key.statement).Some? ==>
      Answer(Match(q, e.key.statement).value, e) in r
    ensures InFactOrder(r, xs)
    ensures Distinct(xs) ==> forall i, j :: 0 <= i < j < |r| ==> r[i].fact.key != r[j].fact.key
  {
    if |xs| == 0 then []
    else
      var rest := Answers(xs[1..], q);
      var e := xs[0];
      OrderTail(xs, rest);
      if e.key.FactKey? && Match(q, e.key.statement).Some? then
        OrderHead(xs, Answer(Match(q, e.key.statement).value, e), rest);
        [Answer(Match(q, e.key.statement).value, e)] + rest
      else
        rest
  }

  /** Of any two answers, the earlier one comes from an earlier fact. */
  ghost predicate InFactOrder(r: seq<Answer>, xs: seq<Item>) {
    forall i, j :: 0 <= i < j < |r| ==> Before(r[i].fact, r[j].fact, xs)
  }

  /** `u` is stored at an earlier position of `xs` than `v`. */
  ghost predicate Before(u: Item, v: Item, xs: seq<Item>) {
    exists a, b :: 0 <= a < b < |xs| && xs[a] == u && xs[b] == v
  }

  lemma OrderTail(xs: seq<Item>, rest: seq<Answer>)
    requires |xs| > 0 && InFactOrder(rest, xs[1..])
    ensures InFactOrder(rest, xs)
    ensures Distinct(xs) ==> Distinct(xs[1..])
  {
    var tl := xs[1..];
    forall i, j | 0 <= i < j < |rest|
      ensures Before(rest[i].fact, rest[j].fact, xs)
    {
      assert Before(rest[i].fact, rest[j].fact, tl);
      var a, b :| 0 <= a < b < |tl| && tl[a] == rest[i].fact && tl[b] == rest[j].fact;
      assert xs[a + 1] == rest[i].fact && xs[b + 1] == rest[j].fact;
    }
  }

  /** An answer from the first fact goes before answers from the rest. */
  lemma OrderHead(xs: seq<Item>, h: Answer, rest: seq<Answer>)
    requires |xs| > 0 && h.fact == xs[0]
    requires forall a :: a in rest ==> a.fact in xs[1..]
    requires InFactOrder(rest, xs)
    requires Distinct(xs) ==> forall i, j :: 0 <= i < j < |rest| ==> rest[i].fact.key != rest[j].fact.key
    ensures InFactOrder([h] + rest, xs)
    ensures Distinct(xs) ==> forall i, j :: 0 <= i < j < |[h] + rest| ==> ([h] + rest)[i].fact.key != ([h] + rest)[j].fact.key
  {
    var r := [h] + rest;
    forall i, j | 0 <= i < j < |r|
      ensures Before(r[i].fact, r[j].fact, xs)
    {
      if i == 0 {
        assert rest[j - 1] in rest;
        var b :| 0 <= b < |xs[1..]| && xs[1..][b] == r[j].fact;
        assert xs[0] == r[i].fact && xs[b + 1] == r[j].fact;
      } else {
        assert r[i] == rest[i - 1] && r[j] == rest[j - 1];
        assert Before(rest[i - 1].fact, rest[j - 1].fact, xs);
      }
    }
    if Distinct(xs) {
      HeadDistinct(xs, h, rest);
    }
  }

  lemma HeadDistinct(xs: seq<Item>, h: Answer, rest: seq<Answer>)
    requires |xs| > 0 && h.fact == xs[0] && Distinct(xs)
    requires forall a :: a in rest ==> a.fact in xs[1..]
    requires forall i, j :: 0 <= i < j < |rest| ==> rest[i].fact.key != rest[j].fact.key
    ensures forall i, j :: 0 <= i < j < |[h] + rest| ==> ([h] + rest)[i].fact.key != ([h] + rest)[j].fact.key
  {
    var r := [h] + rest;
    forall i, j | 0 <= i < j < |r|
      ensures r[i].fact.key != r[j].fact.key
    {
      assert r[j] == rest[j - 1];
      if i == 0 {
        assert rest[j - 1] in rest;
        var b :| 0 <= b < |xs[1..]| && xs[1..][b] == r[j].fact;
        assert xs[b + 1] == r[j].fact;
      } else {
        assert r[i] == rest[i - 1];
      }
    }
  }

  /** `kb_ask`: a query that is not a fact is invalid and yields no answer;
      otherwise every stored fact the query matches yields one. Asking is a
      function of the knowledge base and changes nothing. */
  function Ask(kb: KB, q: Key): (r: seq<Answer>)
    ensures q.RuleKey? ==> r == []
    ensures q.FactKey? ==> forall a :: a in r ==>
      a.fact in kb.facts && a.fact.key.FactKey? && Match(q.statement, a.fact.key.statement) == Some(a.bindings)
    ensures q.FactKey? ==> forall e :: e in kb.facts && e.key.FactKey? && Match(q.statement, e.key.statement).Some? ==>
      exists a :: a in r && a.fact == e
    ensures InFactOrder(r, kb.facts)
    ensures Distinct(kb.facts) ==> forall i, j :: 0 <= i < j < |r| ==> r[i].fact.key != r[j].fact.key
  {
    match q
    case RuleKey(_) => []
    case FactKey(s) =>
      Answers(kb.facts, s)
  }
}

=== FILE: retraction.dfy ===
/** Truth maintenance: `KnowledgeBase.kb_retract` of student_code.py.

    Retracting revokes a caller's assertion; an entry is deleted only once
    nothing justifies it any more, and a deletion cascades: every support pair
    naming the deleted entry is stripped from the entries that remain, and each
    entry whose support that empties is visited in turn. The visits are kept
    on a work list with the newest orphans first, so they run depth-first, in
    collection order. The source instead strips dependents one at a time, in
    the order their derivations were recorded, recursing into each before
    stripping the next.

    The source reaches dependents through back-references that mirror the
    support pairs; stripping every pair that names the deleted entry from
    every stored entry is the same traversal. */
module Retraction {
  import opened Optional
  import opened Statements
  import opened Entries
  import Forward

  /** A knowledge base after one removal attempt, with the entries that the
      attempt left without support. */
  datatype Step = Step(kb: KB, orphans: seq<Key>)

  /** Whether a support pair names the entry with key `k`. */
  predicate Names(p: Support, k: Key) {
    match k
    case FactKey(s) => p.fact == s
    case RuleKey(rl) => p.rule == rl
  }

  /** The support list without any pair naming `k`. */
  function Strip(s: seq<Support>, k: Key): (r: seq<Support>)
    ensures forall p :: p in r <==> p in s && !Names(p, k)
    ensures |r| <= |s|
  {
    if |s| == 0 then []
    else (if Names(s[0], k) then [] else [s[0]]) + Strip(s[1..], k)
  }

  function Stripped(e: Item, k: Key): Item {
    e.(supportedBy := Strip(e.supportedBy, k))
  }

  function StripAll(xs: seq<Item>, k: Key): (r: seq<Item>)
    ensures |r| == |xs|
    ensures forall i :: 0 <= i < |xs| ==> r[i] == Stripped(xs[i], k)
  {
    seq(|xs|, i requires 0 <= i < |xs| => Stripped(xs[i], k))
  }

  /** The keys of the entries whose support the stripping emptied. */
  function Orphans(before: seq<Item>, after: seq<Item>): (r: seq<Key>)
    requires |before| == |after|
    ensures forall i :: 0 <= i < |after| && |before[i].supportedBy| > 0 && |after[i].supportedBy| == 0 ==>
      after[i].key in r
    ensures forall o :: o in r ==>
      exists i :: 0 <= i < |after| && after[i].key == o && |before[i].supportedBy| > 0 && |after[i].supportedBy| == 0
  {
    if |before| == 0 then []
    else
      var rest := Orphans(before[1..], after[1..]);
      assert forall i :: 1 <= i < |after| ==> before[1..][i - 1] == before[i] && after[1..][i - 1] == after[i];
      (if |before[0].supportedBy| > 0 && |after[0].supportedBy| == 0 then [after[0].key] else []) + rest
  }

  /** Deletes the entry stored under `k` and strips every support pair that
      names it from the entries that remain. */
  function Delete(kb: KB, k: Key): (r: Step)
    ensures !Present(kb, k) ==> r == Step(kb, [])
    ensures Present(kb, k) ==> Size(r.kb) + 1 == Size(kb)
  {
    if !Present(kb, k) then Step(kb, [])
    else
      var kb1 := Without(kb, k);
      var facts := StripAll(kb1.facts, k);
      var rules := StripAll(kb1.rules, k);
      Step(KB(facts, rules), Orphans(kb1.facts, facts) + Orphans(kb1.rules, rules))
  }

  /** The knowledge base with the entry stored under `k` taken out. */
  function Without(kb: KB, k: Key): (r: KB)
    requires Present(kb, k)
    ensures Size(r) + 1 == Size(kb)
  {
    var xs := Collection(kb, k);
    var i := Find(xs, k).value;
    WithCollection(kb, k, xs[..i] + xs[i + 1..])
  }

  /** The direct call on a fact or rule, before any cascade. A fact loses its
      assertion and is deleted when no support is left; a rule is deleted
      only when it is neither asserted nor supported. */
  function RetractOne(kb: KB, k: Key): (r: Step)
    ensures !Present(kb, k) ==> r == Step(kb, [])
    ensures Present(kb, k) && k.FactKey? && |Lookup(kb, k).value.supportedBy| == 0 ==> r == Delete(kb, k)
    ensures Present(kb, k) && k.FactKey? && |Lookup(kb, k).value.supportedBy| > 0 ==>
      r == Step(Update(kb, k, Lookup(kb, k).value.(asserted := false)), [])
    ensures Present(kb, k) && k.RuleKey? && !Justified(Lookup(kb, k).value) ==> r == Delete(kb, k)
    ensures Present(kb, k) && k.RuleKey? && Justified(Lookup(kb, k).value) ==> r == Step(kb, [])
    ensures forall k' :: Present(r.kb, k') ==> Present(kb, k')
    ensures forall k' :: k' != k ==> Present(r.kb, k') == Present(kb, k')
    ensures forall k' :: k' != k ==> AssertedIn(r.kb, k') == AssertedIn(kb, k')
    ensures Distinct(Collection(kb, k)) && k.FactKey? ==> !AssertedIn(r.kb, k)
    ensures (Distinct(Collection(kb, k)) && Present(kb, k) && |Lookup(kb, k).value.supportedBy| == 0 &&
             (k.FactKey? || !Lookup(kb, k).value.asserted)) ==> !Present(r.kb, k)
    ensures Size(r.kb) < Size(kb) || (Size(r.kb) == Size(kb) && r.orphans == [])
  {
    match Lookup(kb, k)
    case None => Step(kb, [])
    case Some(e) =>
      if k.FactKey? then
        if |e.supportedBy| == 0 then DeleteKeeps(kb, k); Delete(kb, k)
        else ClearKeeps(kb, k); Step(Update(kb, k, e.(asserted := false)), [])
      else if !e.asserted && |e.supportedBy| == 0 then DeleteKeeps(kb, k); Delete(kb, k)
      else Step(kb, [])
  }

  /** The visit of a dependent in the corrected cascade: it is deleted only
      when it is neither asserted nor supported. */
  function DropIfUnjustified(kb: KB, k: Key): (r: Step)
    ensures Size(r.kb) < Size(kb) || (r.kb == kb && r.orphans == [])
    ensures Lookup(kb, k).None? || Justified(Lookup(kb, k).value) ==> r == Step(kb, [])
    ensures Lookup(kb, k).Some? && !Justified(Lookup(kb, k).value) ==> r == Delete(kb, k)
    ensures Lookup(kb, k).Some? && !Justified(Lookup(kb, k).value) ==> Size(r.kb) < Size(kb)
  {
    match Lookup(kb, k)
    case None => Step(kb, [])
    case Some(e) => if !Justified(e) then Delete(kb, k) else Step(kb, [])
  }

  /** Visits the work list. With `revoke` each dependent gets the full direct
      retraction, as the source's recursive call does; without it, only an
      unjustified dependent is deleted. */
  function Cascade(kb: KB, work: seq<Key>, revoke: bool): (r: KB)
    ensures forall k :: Present(r, k) ==> Present(kb, k)
    ensures Inv(kb, work) ==> Valid(r)
    ensures !revoke ==> forall k :: AssertedIn(kb, k) ==> AssertedIn(r, k)
    ensures !revoke ==> forall x, p :: SupportedByAsserted(kb, x, p) ==> SupportedByAsserted(r, x, p)
    ensures Inv(kb, work) ==> Survives(kb, r)
    ensures Inv(kb, work) ==> PairsKept(kb, r)
    ensures Inv(kb, work) && (!revoke || WorkBare(kb, work)) ==> FlagsAsBefore(kb, r)
    ensures !revoke ==> forall s :: SelfJustified(kb, s) ==> SelfJustified(r, s)
    ensures revoke && Inv(kb, work) ==> forall s :: SelfJustifiedAsWritten(kb, s) && WorkWithin(kb, work, s) ==>
      SelfJustifiedAsWritten(r, s)
    decreases Size(kb), |work|
  {
    if |work| == 0 then
      ValidInv(kb);
      kb
    else
      var w := work[0];
      var st := if revoke then RetractOne(kb, w) else DropIfUnjustified(kb, w);
      var r := Cascade(st.kb, st.orphans + work[1..], revoke);
      StepPresent(kb, w, revoke);
      StepInv(kb, work, revoke);
      StepSurvival(kb, w, revoke);
      StepPairsKept(kb, w, revoke);
      StepFlags(kb, work, revoke);
      StepWithinAll(kb, work, revoke);
      KeptChain(kb, st.kb, r, Inv(kb, work), Inv(kb, work) && (!revoke || WorkBare(kb, work)));
      if revoke then r
      else
        DropAsserted(kb, w);
        r
  }

  /** `kb_retract` with the corrected cascade: a dependent is deleted only
      when it has neither support nor a caller's assertion. */
  function Retract(kb: KB, k: Key): (r: KB)
    ensures !Present(kb, k) ==> r == kb
    ensures k.FactKey? && Present(kb, k) && |Lookup(kb, k).value.supportedBy| > 0 ==>
      r == Update(kb, k, Lookup(kb, k).value.(asserted := false))
    ensures k.RuleKey? && Present(kb, k) && Justified(Lookup(kb, k).value) ==> r == kb
    ensures (Valid(kb) && Present(kb, k) && |Lookup(kb, k).value.supportedBy| == 0 &&
             (k.FactKey? || !Lookup(kb, k).value.asserted)) ==> !Present(r, k)
    ensures Valid(kb) && k.FactKey? ==> !AssertedIn(r, k)
    ensures forall k' :: Present(r, k') ==> Present(kb, k')
    ensures Valid(kb) ==> Valid(r)
    ensures Valid(kb) ==> Survives(kb, r)
    ensures Valid(kb) ==> PairsKept(kb, r)
    ensures forall k' :: k' != k && AssertedIn(kb, k') ==> AssertedIn(r, k')
    ensures Valid(kb) ==> forall k' :: k' != k && Present(r, k') ==> AssertedIn(r, k') == AssertedIn(kb, k')
    ensures Valid(kb) ==> forall x :: !DependsOn(kb, k, x) ==> Lookup(r, x) == Lookup(kb, x)
    ensures forall s :: k !in s && SelfJustified(kb, s) ==> SelfJustified(r, s)
  {
    var st := RetractOne(kb, k);
    RetractOneWithinAll(kb, k);
    CascadeEmpty(st.kb, false);
    var r := Cascade(st.kb, st.orphans, false);
    if Valid(kb) then
      RetractOneInv(kb, k);
      StepSurvival(kb, k, true);
      RetractKept(kb, k, false);
      r
    else r
  }

  /** `kb_retract` as written: the cascade calls the full retraction on
      every dependent whose support it empties, which revokes a dependent
      fact's own assertion. The direct call is the same as in `Retract`. */
  function RetractAsWritten(kb: KB, k: Key): (r: KB)
    ensures !Present(kb, k) ==> r == kb
    ensures k.FactKey? && Present(kb, k) && |Lookup(kb, k).value.supportedBy| > 0 ==>
      r == Update(kb, k, Lookup(kb, k).value.(asserted := false))
    ensures k.RuleKey? && Present(kb, k) && Justified(Lookup(kb, k).value) ==> r == kb
    ensures (Valid(kb) && Present(kb, k) && |Lookup(kb, k).value.supportedBy| == 0 &&
             (k.FactKey? || !Lookup(kb, k).value.asserted)) ==> !Present(r, k)
    ensures Valid(kb) && k.FactKey? ==> !AssertedIn(r, k)
    ensures forall k' :: Present(r, k') ==> Present(kb, k')
    ensures Valid(kb) ==> Valid(r)
    ensures Valid(kb) ==> Survives(kb, r)
    ensures Valid(kb) ==> PairsKept(kb, r)
    ensures Valid(kb) ==> forall k' :: k' != k && Present(r, k') ==> AssertedIn(r, k') == AssertedIn(kb, k')
    ensures Valid(kb) ==> forall x :: !DependsOn(kb, k, x) ==> Lookup(r, x) == Lookup(kb, x)
    ensures Valid(kb) ==> forall s :: k !in s && SelfJustifiedAsWritten(kb, s) ==> SelfJustifiedAsWritten(r, s)
  {
    var st := RetractOne(kb, k);
    RetractOneWithinAll(kb, k);
    CascadeEmpty(st.kb, true);
    var r := Cascade(st.kb, st.orphans, true);
    if Valid(kb) then
      RetractOneInv(kb, k);
      StepSurvival(kb, k, true);
      RetractKept(kb, k, true);
      r
    else r
  }

  /** What both retractions keep: no entry gains a pair, every entry but the
      retracted one keeps its assertion, and every entry that does not
      depend on the retracted one is left as it was. */
  lemma RetractKept(kb: KB, k: Key, revoke: bool)
    requires Valid(kb)
    ensures var st := RetractOne(kb, k);
      var r := Cascade(st.kb, st.orphans, revoke);
      && PairsKept(kb, r)
      && (forall k' :: k' != k && Present(r, k') ==> AssertedIn(r, k') == AssertedIn(kb, k'))
      && (forall x :: !DependsOn(kb, k, x) ==> Lookup(r, x) == Lookup(kb, x))
  {
    RetractKeptFlags(kb, k, revoke);
    RetractFrame(kb, k, revoke);
  }

  lemma RetractKeptFlags(kb: KB, k: Key, revoke: bool)
    requires Valid(kb)
    ensures var st := RetractOne(kb, k);
      var r := Cascade(st.kb, st.orphans, revoke);
      && PairsKept(kb, r)
      && (forall k' :: k' != k && Present(r, k') ==> AssertedIn(r, k') == AssertedIn(kb, k'))
  {
    RetractPairsKept(kb, k, revoke);
    RetractFlagsKept(kb, k, revoke);
  }

  lemma RetractPairsKept(kb: KB, k: Key, revoke: bool)
    requires Valid(kb)
    ensures var st := RetractOne(kb, k);
      PairsKept(kb, Cascade(st.kb, st.orphans, revoke))
  {
    var st := RetractOne(kb, k);
    RetractOneInv(kb, k);
    StepPairsKept(kb, k, true);
    var r := Cascade(st.kb, st.orphans, revoke);
    assert PairsKept(st.kb, r);
    forall x, p | Supports(r, x, p)
      ensures Supports(kb, x, p)
    {
      assert Supports(st.kb, x, p);
    }
  }

  lemma RetractFlagsKept(kb: KB, k: Key, revoke: bool)
    requires Valid(kb)
    ensures var st := RetractOne(kb, k);
      var r := Cascade(st.kb, st.orphans, revoke);
      forall k' :: k' != k && Present(r, k') ==> AssertedIn(r, k') == AssertedIn(kb, k')
  {
    var st := RetractOne(kb, k);
    RetractOneInv(kb, k);
    RetractOneBare(kb, k);
    var r := Cascade(st.kb, st.orphans, revoke);
    assert FlagsAsBefore(st.kb, r);
    forall k' | k' != k && Present(r, k')
      ensures AssertedIn(r, k') == AssertedIn(kb, k')
    {
      assert Present(st.kb, k');
    }
  }

  lemma RetractFrame(kb: KB, k: Key, revoke: bool)
    requires Valid(kb)
    ensures var st := RetractOne(kb, k);
      Untouched(kb, k, Cascade(st.kb, st.orphans, revoke))
  {
    var st := RetractOne(kb, k);
    RetractOneInv(kb, k);
    DependsOnSelf(kb, k);
    StepFrame(kb, k, kb, k, true);
    CascadeFrame(kb, k, st.kb, st.orphans, revoke);
  }

  /** Retraction keeps support sound: a pair left in the knowledge base is
      one that was there, so it still records a real firing. */
  lemma RetractSoundSupport(kb: KB, k: Key)
    requires Valid(kb) && Forward.SoundSupport(kb)
    ensures Forward.SoundSupport(Retract(kb, k))
    ensures Forward.SoundSupport(RetractAsWritten(kb, k))
  {
    PairsKeptSound(kb, Retract(kb, k));
    PairsKeptSound(kb, RetractAsWritten(kb, k));
  }

  lemma PairsKeptSound(a: KB, b: KB)
    requires Forward.SoundSupport(a) && PairsKept(a, b) && Valid(b)
    ensures Forward.SoundSupport(b)
  {
    forall i | 0 <= i < |b.facts|
      ensures Forward.FiredBy(b.facts[i])
    {
      FindDistinct(b.facts, i);
      SupportFires(a, b, b.facts[i].key);
    }
    forall i | 0 <= i < |b.rules|
      ensures Forward.FiredBy(b.rules[i])
    {
      FindDistinct(b.rules, i);
      SupportFires(a, b, b.rules[i].key);
    }
  }

  lemma SupportFires(a: KB, b: KB, x: Key)
    requires Forward.SoundSupport(a) && PairsKept(a, b) && Present(b, x)
    ensures Forward.FiredBy(Lookup(b, x).value)
  {
    forall p | p in Lookup(b, x).value.supportedBy
      ensures Forward.Fires(p, x)
    {
      assert Supports(b, x, p);
      var j := Find(Collection(a, x), x).value;
      assert Forward.FiredBy(Collection(a, x)[j]);
    }
  }

  /** A cascade with nothing to visit changes nothing. */
  lemma CascadeEmpty(kb: KB, revoke: bool)
    ensures Cascade(kb, [], revoke) == kb
  {
  }

  /** A derivation from an asserted fact and an asserted rule, neither of
      them the retracted entry, survives the retraction together with the
      entry it supports. */
  lemma RetractKeepsAssertedSupport(kb: KB, k: Key, x: Key, p: Support)
    requires SupportedByAsserted(kb, x, p)
    requires FactKey(p.fact) != k && RuleKey(p.rule) != k
    ensures Present(Retract(kb, k), x)
    ensures p in Lookup(Retract(kb, k), x).value.supportedBy
  {
    var st := RetractOne(kb, k);
    RetractOneKeeps(kb, k, x, p);
    assert SupportedByAsserted(Cascade(st.kb, st.orphans, false), x, p);
  }

  /** Retracting a supported fact twice is retracting it once: the first
      call revokes the assertion, the second finds nothing to do. */
  lemma RetractSupportedFactTwice(kb: KB, k: Key)
    requires k.FactKey? && Present(kb, k) && |Lookup(kb, k).value.supportedBy| > 0
    ensures Retract(Retract(kb, k), k) == Retract(kb, k)
    ensures Present(Retract(kb, k), k) && !AssertedIn(Retract(kb, k), k)
  {
    var e' := Lookup(kb, k).value.(asserted := false);
    var r1 := Retract(kb, k);
    UpdateLookup(kb, k, e', k);
    assert Lookup(r1, k) == Some(e');
    assert e'.(asserted := false) == e';
    UpdateSame(r1, k);
  }

  // ----- The cascade revokes an assertion: a concrete knowledge base -----

  /** Fact `b` is asserted and also derived from asserted fact `a` by the
      asserted rule `a => b`. */
  const FactA := Statement("a", [])
  const FactB := Statement("b", [])
  const RuleAB := Rule([FactA], FactB)
  const ItemA := Item(FactKey(FactA), true, [])
  const ItemB := Item(FactKey(FactB), true, [Support(FactA, RuleAB)])
  const ItemAB := Item(RuleKey(RuleAB), true, [])
  const Example := KB([ItemA, ItemB], [ItemAB])

  lemma ExampleValid()
    ensures Valid(Example) && AssertedIn(Example, FactKey(FactB))
  {
    assert FactKey(FactA) != FactKey(FactB) by { assert FactA.symbol != FactB.symbol; }
    assert Find(Example.facts, FactKey(FactA)) == Some(0);
    assert Find(Example.facts, FactKey(FactB)) == Some(1);
    assert Find(Example.rules, RuleKey(RuleAB)) == Some(0);
  }

  /** Retracting `a` deletes it and leaves `b` without support. */
  lemma ExampleFirstStep()
    ensures RetractOne(Example, FactKey(FactA)) == Step(KB([ItemB.(supportedBy := [])], [ItemAB]), [FactKey(FactB)])
  {
    var fb' := ItemB.(supportedBy := []);
    assert Find(Example.facts, FactKey(FactA)) == Some(0);
    assert Without(Example, FactKey(FactA)) == KB([ItemB], [ItemAB]);
    assert Strip(ItemB.supportedBy, FactKey(FactA)) == [];
    assert StripAll([ItemB], FactKey(FactA)) == [fb'];
    assert StripAll([ItemAB], FactKey(FactA)) == [ItemAB];
    assert Orphans([ItemB], [fb']) == [FactKey(FactB)] by {
      assert [ItemB][1..] == [] && [fb'][1..] == [];
    }
    assert Orphans([ItemAB], [ItemAB]) == [] by {
      assert [ItemAB][1..] == [];
    }
  }

  /** The full retraction of the orphaned, still asserted `b` deletes it. */
  lemma ExampleSecondStep()
    ensures RetractOne(KB([ItemB.(supportedBy := [])], [ItemAB]), FactKey(FactB)) == Step(KB([], [ItemAB]), [])
  {
    var kb := KB([ItemB.(supportedBy := [])], [ItemAB]);
    assert Find(kb.facts, FactKey(FactB)) == Some(0);
    assert Without(kb, FactKey(FactB)) == KB([], [ItemAB]);
    assert StripAll([ItemAB], FactKey(FactB)) == [ItemAB];
    assert Orphans([ItemAB], [ItemAB]) == [] by {
      assert [ItemAB][1..] == [];
    }
  }

  /** The source's cascade loses a caller's assertion: retracting `a` as
      written deletes the asserted fact `b`; the corrected retraction keeps
      it, still asserted. */
  lemma AsWrittenCascadeRevokesAssertion()
    ensures Valid(Example) && AssertedIn(Example, FactKey(FactB))
    ensures !Present(RetractAsWritten(Example, FactKey(FactA)), FactKey(FactB))
    ensures AssertedIn(Retract(Example, FactKey(FactA)), FactKey(FactB))
  {
    ExampleValid();
    ExampleFirstStep();
    ExampleSecondStep();
    var kb2 := KB([ItemB.(supportedBy := [])], [ItemAB]);
    assert [FactKey(FactB)][1..] == [];
    assert Cascade(kb2, [FactKey(FactB)], true) == Cascade(KB([], [ItemAB]), [], true);
    assert FactKey(FactB) != FactKey(FactA) by { assert FactA.symbol != FactB.symbol; }
  }

  // ----- The cascade as written differs only on asserted derived facts -----

  /** No stored fact is both asserted by a caller and derived. */
  predicate NoAssertedDerivedFact(kb: KB) {
    forall e :: e in kb.facts && e.asserted ==> |e.supportedBy| == 0
  }

  /** No key on the work list is a stored, asserted fact. */
  predicate NoAssertedFactIn(kb: KB, work: seq<Key>) {
    forall w :: w in work && w.FactKey? ==> !AssertedIn(kb, w)
  }

  /** When no fact is both asserted and derived, the retraction as written
      and the corrected one give the same knowledge base: the finding is the
      only way the two differ. */
  lemma AsWrittenAgrees(kb: KB, k: Key)
    requires Valid(kb) && NoAssertedDerivedFact(kb)
    ensures RetractAsWritten(kb, k) == Retract(kb, k)
  {
    var st := RetractOne(kb, k);
    RetractOneInv(kb, k);
    CascadeEmpty(st.kb, true);
    CascadeEmpty(st.kb, false);
    if Present(kb, k) && |Lookup(kb, k).value.supportedBy| == 0 && (k.FactKey? || !Lookup(kb, k).value.asserted) {
      DeleteKeepsNoDerived(kb, k);
      CascadeAgrees(st.kb, st.orphans);
    }
  }

  /** The two cascades agree while no asserted fact awaits a visit. */
  lemma CascadeAgrees(kb: KB, work: seq<Key>)
    requires Inv(kb, work) && NoAssertedDerivedFact(kb) && NoAssertedFactIn(kb, work)
    ensures Cascade(kb, work, true) == Cascade(kb, work, false)
    decreases Size(kb), |work|
  {
    if |work| > 0 {
      var w := work[0];
      VisitsAgree(kb, w);
      var st := DropIfUnjustified(kb, w);
      var work' := st.orphans + work[1..];
      StepInv(kb, work, false);
      if Lookup(kb, w).Some? && !Justified(Lookup(kb, w).value) {
        DeleteKeepsNoDerived(kb, w);
        DeleteKeeps(kb, w);
        forall w' | w' in work' && w'.FactKey?
          ensures !AssertedIn(st.kb, w')
        {
          if w' !in st.orphans {
            assert w' in work;
          }
        }
      }
      CascadeAgrees(st.kb, work');
    }
  }

  /** On a key that is not an asserted fact, the full retraction and the
      corrected visit coincide. */
  lemma VisitsAgree(kb: KB, w: Key)
    requires !(w.FactKey? && AssertedIn(kb, w))
    ensures RetractOne(kb, w) == DropIfUnjustified(kb, w)
  {
    if Present(kb, w) && w.FactKey? && |Lookup(kb, w).value.supportedBy| > 0 {
      assert Lookup(kb, w).value.(asserted := false) == Lookup(kb, w).value;
      UpdateSame(kb, w);
    }
  }

  /** A deletion keeps asserted facts underived, and reports no asserted
      fact as an orphan. */
  lemma DeleteKeepsNoDerived(kb: KB, w: Key)
    requires Present(kb, w) && WellKinded(kb) && NoDuplicates(kb) && NoAssertedDerivedFact(kb)
    ensures NoAssertedDerivedFact(Delete(kb, w).kb)
    ensures NoAssertedFactIn(Delete(kb, w).kb, Delete(kb, w).orphans)
  {
    var kb1 := Without(kb, w);
    var st := Delete(kb, w);
    var fs := StripAll(kb1.facts, w);
    var rs := StripAll(kb1.rules, w);
    assert st.kb.facts == fs;
    assert st.orphans == Orphans(kb1.facts, fs) + Orphans(kb1.rules, rs);
    WithoutMembers(kb, w);
    StripUnderived(kb, kb1.facts, w);
    StripKeys(kb1.facts, w);
    StripKeys(kb1.rules, w);
    RuleOrphans(kb1.rules, rs);
    FactOrphansUnasserted(kb, kb1.facts, st.kb, w);
  }

  lemma StripUnderived(kb: KB, xs: seq<Item>, w: Key)
    requires NoAssertedDerivedFact(kb) && forall e :: e in xs ==> e in kb.facts
    ensures forall e :: e in StripAll(xs, w) && e.asserted ==> |e.supportedBy| == 0
  {
    var fs := StripAll(xs, w);
    forall e | e in fs && e.asserted
      ensures |e.supportedBy| == 0
    {
      var j :| 0 <= j < |fs| && fs[j] == e;
      assert xs[j] in kb.facts;
    }
  }

  /** Orphans of a collection of rules are rule keys. */
  lemma RuleOrphans(xs: seq<Item>, ys: seq<Item>)
    requires |xs| == |ys| && forall j :: 0 <= j < |ys| ==> ys[j].key.RuleKey?
    ensures forall o :: o in Orphans(xs, ys) ==> o.RuleKey?
  {
  }

  /** A fact orphaned by the deletion was derived before it, so it is not
      asserted. */
  lemma FactOrphansUnasserted(kb: KB, xs: seq<Item>, r: KB, w: Key)
    requires NoAssertedDerivedFact(kb) && forall e :: e in xs ==> e in kb.facts
    requires r.facts == StripAll(xs, w) && Distinct(r.facts)
    ensures forall o :: o in Orphans(xs, r.facts) && o.FactKey? ==> !AssertedIn(r, o)
  {
    var fs := r.facts;
    forall o | o in Orphans(xs, fs) && o.FactKey?
      ensures !AssertedIn(r, o)
    {
      var i :| 0 <= i < |fs| && fs[i].key == o && |xs[i].supportedBy| > 0 && |fs[i].supportedBy| == 0;
      FindDistinct(fs, i);
      assert xs[i] in kb.facts;
    }
  }

  // ----- Invariants of the cascade -----

  /** Every unjustified entry is still waiting on the work list. */
  predicate JustifiedExcept(kb: KB, work: seq<Key>) {
    && (forall j :: 0 <= j < |kb.facts| && !Justified(kb.facts[j]) ==> kb.facts[j].key in work)
    && (forall j :: 0 <= j < |kb.rules| && !Justified(kb.rules[j]) ==> kb.rules[j].key in work)
  }

  /** `Valid` with the justification of the entries still on the work list
      pending. */
  predicate Inv(kb: KB, work: seq<Key>) {
    && WellKinded(kb)
    && NoDuplicates(kb)
    && Closed(kb)
    && JustifiedExcept(kb, work)
  }

  /** Every pair whose fact and rule are still stored in `b` is still held,
      by the same entry, in `b`. */
  ghost predicate Survives(a: KB, b: KB) {
    forall x, p :: Supports(a, x, p) && PairLive(b, p) ==> Supports(b, x, p)
  }

  /** No entry of `b` holds a pair that the same entry did not hold in `a`. */
  ghost predicate PairsKept(a: KB, b: KB) {
    forall x, p :: Supports(b, x, p) ==> Supports(a, x, p)
  }

  /** Every entry of `b` has the assertion flag it had in `a`. */
  ghost predicate FlagsAsBefore(a: KB, b: KB) {
    forall x :: Present(b, x) ==> AssertedIn(b, x) == AssertedIn(a, x)
  }

  /** Every key on the work list that is still stored has no support left. */
  predicate WorkBare(kb: KB, work: seq<Key>) {
    forall w :: w in work && Present(kb, w) ==> |Lookup(kb, w).value.supportedBy| == 0
  }

  /** What is kept across two removals, the second of which removes only. */
  lemma KeptChain(a: KB, m: KB, b: KB, live: bool, flags: bool)
    requires forall k :: Present(b, k) ==> Present(m, k)
    requires live ==> Survives(a, m) && Survives(m, b) && PairsKept(a, m) && PairsKept(m, b)
    requires flags ==> FlagsAsBefore(a, m) && FlagsAsBefore(m, b)
    ensures live ==> Survives(a, b) && PairsKept(a, b)
    ensures flags ==> FlagsAsBefore(a, b)
  {
  }

  // ----- Dependence: what a retraction may touch -----

  /** Entry `y` holds a pair naming `x`: it was derived, in one step, from
      `x`. */
  ghost predicate DerivedFrom(kb: KB, x: Key, y: Key) {
    Present(kb, y) && exists p :: p in Lookup(kb, y).value.supportedBy && Names(p, x)
  }

  /** Each key on `path` was derived, in one step, from the key before it. */
  ghost predicate Path(kb: KB, path: seq<Key>) {
    |path| > 0 && forall i :: 0 <= i < |path| - 1 ==> DerivedFrom(kb, path[i], path[i + 1])
  }

  /** `x` is `k` itself or rests, through a chain of derivations, on `k`. */
  ghost predicate DependsOn(kb: KB, k: Key, x: Key) {
    exists path :: Path(kb, path) && path[0] == k && path[|path| - 1] == x
  }

  /** Every entry that does not depend on `k` in `kb0` is in `kb` as it was
      in `kb0`. */
  ghost predicate Untouched(kb0: KB, k: Key, kb: KB) {
    forall x :: !DependsOn(kb0, k, x) ==> Lookup(kb, x) == Lookup(kb0, x)
  }

  lemma DependsOnSelf(kb: KB, k: Key)
    ensures DependsOn(kb, k, k)
  {
    assert Path(kb, [k]);
  }

  lemma DependsOnStep(kb: KB, k: Key, w: Key, x: Key)
    requires DependsOn(kb, k, w) && DerivedFrom(kb, w, x)
    ensures DependsOn(kb, k, x)
  {
    var path :| Path(kb, path) && path[0] == k && path[|path| - 1] == w;
    var path' := path + [x];
    forall i | 0 <= i < |path'| - 1
      ensures DerivedFrom(kb, path'[i], path'[i + 1])
    {
      if i < |path| - 1 {
        assert path'[i] == path[i] && path'[i + 1] == path[i + 1];
      }
    }
    assert Path(kb, path');
  }

  /** A derivation seen in a partly retracted knowledge base from a key that
      `k` reaches was already there before, so its entry depends on `k`. */
  lemma DependsOnKept(kb0: KB, k: Key, kb: KB, w: Key, x: Key)
    requires Untouched(kb0, k, kb) && DependsOn(kb0, k, w) && DerivedFrom(kb, w, x)
    ensures DependsOn(kb0, k, x)
  {
    if !DependsOn(kb0, k, x) {
      assert Lookup(kb, x) == Lookup(kb0, x);
      assert DerivedFrom(kb0, w, x);
      DependsOnStep(kb0, k, w, x);
    }
  }

  /** An entry that does not depend on `k` holds no pair naming a key that
      does. */
  lemma NoDerivationOutside(kb0: KB, k: Key, kb: KB, w: Key, x: Key)
    requires Untouched(kb0, k, kb) && DependsOn(kb0, k, w) && !DependsOn(kb0, k, x)
    ensures !DerivedFrom(kb, w, x)
  {
    if DerivedFrom(kb, w, x) {
      DependsOnKept(kb0, k, kb, w, x);
    }
  }

  /** A support list with no pair naming `k` is left as it is. */
  lemma StripNone(s: seq<Support>, k: Key)
    requires forall p :: p in s ==> !Names(p, k)
    ensures Strip(s, k) == s
  {
    if |s| > 0 {
      assert s[0] in s;
      StripNone(s[1..], k);
      assert [s[0]] + s[1..] == s;
    }
  }

  /** One visit of a key that depends on `k` touches only entries that
      depend on `k`, and reports only such entries. */
  lemma StepFrame(kb0: KB, k: Key, kb: KB, w: Key, revoke: bool)
    requires WellKinded(kb) && NoDuplicates(kb)
    requires DependsOn(kb0, k, w) && Untouched(kb0, k, kb)
    ensures var st := if revoke then RetractOne(kb, w) else DropIfUnjustified(kb, w);
      && Untouched(kb0, k, st.kb)
      && (forall o :: o in st.orphans ==> DependsOn(kb0, k, o))
  {
    var st := if revoke then RetractOne(kb, w) else DropIfUnjustified(kb, w);
    if Present(kb, w) {
      var e := Lookup(kb, w).value;
      if |e.supportedBy| == 0 && ((revoke && w.FactKey?) || !e.asserted) {
        assert st == Delete(kb, w);
        forall x | !DependsOn(kb0, k, x)
          ensures Lookup(st.kb, x) == Lookup(kb0, x)
        {
          DeleteFrame(kb0, k, kb, w, x);
        }
        DeleteOrphans(kb, w);
        forall o | o in st.orphans
          ensures DependsOn(kb0, k, o)
        {
          DependsOnKept(kb0, k, kb, w, o);
        }
      } else if revoke && w.FactKey? {
        forall x | !DependsOn(kb0, k, x)
          ensures Lookup(st.kb, x) == Lookup(kb0, x)
        {
          UpdateLookup(kb, w, e.(asserted := false), x);
        }
      }
    }
  }

  /** Deleting an entry that depends on `k` changes no entry that does not. */
  lemma DeleteFrame(kb0: KB, k: Key, kb: KB, w: Key, x: Key)
    requires Present(kb, w) && DependsOn(kb0, k, w) && Untouched(kb0, k, kb)
    requires !DependsOn(kb0, k, x)
    ensures Lookup(Delete(kb, w).kb, x) == Lookup(kb0, x)
  {
    DeleteLookup(kb, w, x);
    if Present(kb, x) {
      NoDerivationOutside(kb0, k, kb, w, x);
      StripNone(Lookup(kb, x).value.supportedBy, w);
    }
  }

  /** The cascade from work that depends on `k` touches only entries that
      depend on `k`. */
  lemma CascadeFrame(kb0: KB, k: Key, kb: KB, work: seq<Key>, revoke: bool)
    requires Inv(kb, work)
    requires (forall w :: w in work ==> DependsOn(kb0, k, w)) && Untouched(kb0, k, kb)
    ensures Untouched(kb0, k, Cascade(kb, work, revoke))
    decreases Size(kb), |work|
  {
    if |work| > 0 {
      var w := work[0];
      var st := if revoke then RetractOne(kb, w) else DropIfUnjustified(kb, w);
      StepInv(kb, work, revoke);
      StepFrame(kb0, k, kb, w, revoke);
      CascadeFrame(kb0, k, st.kb, st.orphans + work[1..], revoke);
    }
  }

  // ----- Self-justified sets: what a retraction may not take away -----

  /** `x` is stored and holds a pair whose fact and rule are both in `s`. */
  ghost predicate SupportedWithin(kb: KB, x: Key, s: set<Key>) {
    Present(kb, x) && exists p :: p in Lookup(kb, x).value.supportedBy && FactKey(p.fact) in s && RuleKey(p.rule) in s
  }

  /** Every member of `s` is stored and justified, by its own assertion or
      by a derivation from members of `s`: the set stands on its own. */
  ghost predicate SelfJustified(kb: KB, s: set<Key>) {
    forall x :: x in s ==> Present(kb, x) && (AssertedIn(kb, x) || SupportedWithin(kb, x, s))
  }

  /** The same for the cascade as written, in which a fact's own assertion
      holds it only while it has no support at all: a fact whose support the
      cascade empties is deleted, asserted or not. */
  ghost predicate SelfJustifiedAsWritten(kb: KB, s: set<Key>) {
    forall x :: x in s ==>
      && Present(kb, x)
      && (SupportedWithin(kb, x, s) || (AssertedIn(kb, x) && (x.RuleKey? || |Lookup(kb, x).value.supportedBy| == 0)))
  }

  /** Every fact of `s` waiting on the work list holds a derivation from
      members of `s`. */
  ghost predicate WorkWithin(kb: KB, work: seq<Key>, s: set<Key>) {
    forall w :: w in work && w in s && w.FactKey? ==> SupportedWithin(kb, w, s)
  }

  /** `b` keeps every member of `s` that `a` stores: a derivation from
      members of `s` survives, and a member without one keeps its flag and
      gains no support. */
  ghost predicate KeepsWithin(a: KB, b: KB, s: set<Key>) {
    forall x :: x in s && Present(a, x) ==>
      && Present(b, x)
      && (SupportedWithin(a, x, s) ==> SupportedWithin(b, x, s))
      && (!SupportedWithin(a, x, s) ==>
            AssertedIn(b, x) == AssertedIn(a, x) &&
            |Lookup(b, x).value.supportedBy| <= |Lookup(a, x).value.supportedBy|)
  }

  lemma KeepsWithinJustified(a: KB, b: KB, s: set<Key>, work: seq<Key>)
    requires KeepsWithin(a, b, s)
    ensures SelfJustified(a, s) ==> SelfJustified(b, s)
    ensures SelfJustifiedAsWritten(a, s) ==> SelfJustifiedAsWritten(b, s)
    ensures WorkWithin(a, work, s) ==> WorkWithin(b, work, s)
  {
  }

  /** Deleting an entry outside `s` keeps `s`; a fact of `s` it orphans held
      a derivation from members of `s`. */
  lemma DeleteWithin(kb: KB, w: Key, s: set<Key>)
    requires Present(kb, w) && w !in s
    ensures KeepsWithin(kb, Delete(kb, w).kb, s)
    ensures WellKinded(kb) && NoDuplicates(kb) && SelfJustifiedAsWritten(kb, s) ==>
      WorkWithin(Delete(kb, w).kb, Delete(kb, w).orphans, s)
  {
    var r := Delete(kb, w).kb;
    forall x | x in s && Present(kb, x)
      ensures Present(r, x) && AssertedIn(r, x) == AssertedIn(kb, x)
      ensures |Lookup(r, x).value.supportedBy| <= |Lookup(kb, x).value.supportedBy|
      ensures SupportedWithin(kb, x, s) ==> SupportedWithin(r, x, s)
    {
      DeleteLookup(kb, w, x);
      if SupportedWithin(kb, x, s) {
        var p :| p in Lookup(kb, x).value.supportedBy && FactKey(p.fact) in s && RuleKey(p.rule) in s;
        assert !Names(p, w);
        assert p in Lookup(r, x).value.supportedBy;
      }
    }
    if WellKinded(kb) && NoDuplicates(kb) && SelfJustifiedAsWritten(kb, s) {
      DeleteOrphans(kb, w);
      forall o | o in Delete(kb, w).orphans && o in s && o.FactKey?
        ensures SupportedWithin(r, o, s)
      {
        assert DerivedFrom(kb, w, o);
      }
    }
  }

  /** Revoking the assertion of an entry outside `s`, or of one that holds
      a derivation from members of `s`, keeps `s`. */
  lemma ClearWithin(kb: KB, w: Key, s: set<Key>)
    requires Present(kb, w) && (w !in s || SupportedWithin(kb, w, s))
    ensures KeepsWithin(kb, Update(kb, w, Lookup(kb, w).value.(asserted := false)), s)
  {
    var e' := Lookup(kb, w).value.(asserted := false);
    forall x | x in s && Present(kb, x)
      ensures Lookup(Update(kb, w, e'), x) == if x == w then Some(e') else Lookup(kb, x)
    {
      UpdateLookup(kb, w, e', x);
    }
  }

  /** The direct call on a key outside `s` keeps `s`; a fact of `s` it
      orphans held a derivation from members of `s`. */
  lemma RetractOneWithin(kb: KB, k: Key, s: set<Key>)
    requires k !in s
    ensures KeepsWithin(kb, RetractOne(kb, k).kb, s)
    ensures WellKinded(kb) && NoDuplicates(kb) && SelfJustifiedAsWritten(kb, s) ==>
      WorkWithin(RetractOne(kb, k).kb, RetractOne(kb, k).orphans, s)
  {
    if Present(kb, k) {
      var e := Lookup(kb, k).value;
      if |e.supportedBy| == 0 && (k.FactKey? || !e.asserted) {
        DeleteWithin(kb, k, s);
      } else if k.FactKey? {
        ClearWithin(kb, k, s);
      }
    }
  }

  /** One visit of the corrected cascade never deletes a member of `s`: it
      would be justified. */
  lemma DropWithin(kb: KB, w: Key, s: set<Key>)
    requires SelfJustified(kb, s)
    ensures SelfJustified(DropIfUnjustified(kb, w).kb, s)
  {
    if Lookup(kb, w).Some? && !Justified(Lookup(kb, w).value) {
      assert w !in s;
      DeleteWithin(kb, w, s);
      KeepsWithinJustified(kb, DropIfUnjustified(kb, w).kb, s, []);
    }
  }

  /** One visit of the cascade as written keeps `s` as long as every fact of
      `s` it visits holds a derivation from members of `s`. */
  lemma RevokeWithin(kb: KB, work: seq<Key>, s: set<Key>)
    requires |work| > 0 && Inv(kb, work) && SelfJustifiedAsWritten(kb, s) && WorkWithin(kb, work, s)
    ensures var st := RetractOne(kb, work[0]);
      SelfJustifiedAsWritten(st.kb, s) && WorkWithin(st.kb, st.orphans + work[1..], s)
  {
    var w := work[0];
    var st := RetractOne(kb, w);
    if Present(kb, w) {
      var e := Lookup(kb, w).value;
      if |e.supportedBy| == 0 && (w.FactKey? || !e.asserted) {
        assert st == Delete(kb, w);
        assert w !in s;
        DeleteWithin(kb, w, s);
        KeepsWithinJustified(kb, st.kb, s, work[1..]);
      } else if w.FactKey? {
        ClearWithin(kb, w, s);
        KeepsWithinJustified(kb, st.kb, s, work[1..]);
      } else {
        assert st.kb == kb && st.orphans == [];
      }
    }
  }

  lemma StepWithinAll(kb: KB, work: seq<Key>, revoke: bool)
    requires |work| > 0
    ensures var st := if revoke then RetractOne(kb, work[0]) else DropIfUnjustified(kb, work[0]);
      && (!revoke ==> forall s :: SelfJustified(kb, s) ==> SelfJustified(st.kb, s))
      && (revoke && Inv(kb, work) ==> forall s :: SelfJustifiedAsWritten(kb, s) && WorkWithin(kb, work, s) ==>
            SelfJustifiedAsWritten(st.kb, s) && WorkWithin(st.kb, st.orphans + work[1..], s))
  {
    var st := if revoke then RetractOne(kb, work[0]) else DropIfUnjustified(kb, work[0]);
    forall s | !revoke && SelfJustified(kb, s)
      ensures SelfJustified(st.kb, s)
    {
      DropWithin(kb, work[0], s);
    }
    forall s | revoke && Inv(kb, work) && SelfJustifiedAsWritten(kb, s) && WorkWithin(kb, work, s)
      ensures SelfJustifiedAsWritten(st.kb, s) && WorkWithin(st.kb, st.orphans + work[1..], s)
    {
      RevokeWithin(kb, work, s);
    }
  }

  /** The direct call on `k` keeps every set that stands without `k`. */
  lemma RetractOneWithinAll(kb: KB, k: Key)
    ensures forall s :: k !in s && SelfJustified(kb, s) ==> SelfJustified(RetractOne(kb, k).kb, s)
    ensures WellKinded(kb) && NoDuplicates(kb) ==> forall s :: k !in s && SelfJustifiedAsWritten(kb, s) ==>
      SelfJustifiedAsWritten(RetractOne(kb, k).kb, s) && WorkWithin(RetractOne(kb, k).kb, RetractOne(kb, k).orphans, s)
  {
    var st := RetractOne(kb, k);
    forall s | k !in s && SelfJustified(kb, s)
      ensures SelfJustified(st.kb, s)
    {
      RetractOneWithin(kb, k, s);
      KeepsWithinJustified(kb, st.kb, s, []);
    }
    forall s | WellKinded(kb) && NoDuplicates(kb) && k !in s && SelfJustifiedAsWritten(kb, s)
      ensures SelfJustifiedAsWritten(st.kb, s) && WorkWithin(st.kb, st.orphans, s)
    {
      RetractOneWithin(kb, k, s);
      KeepsWithinJustified(kb, st.kb, s, []);
    }
  }

  /** Entry `x` holds pair `p`, whose fact and rule are both asserted. */
  predicate SupportedByAsserted(kb: KB, x: Key, p: Support) {
    && Supports(kb, x, p)
    && AssertedIn(kb, FactKey(p.fact))
    && AssertedIn(kb, RuleKey(p.rule))
  }

  lemma ValidInv(kb: KB)
    ensures Inv(kb, []) ==> Valid(kb)
    ensures Valid(kb) ==> forall work :: Inv(kb, work)
  {
  }

  // ----- Lemmas about lookups after a change -----

  lemma FindSameKeys(xs: seq<Item>, ys: seq<Item>, k: Key)
    requires |xs| == |ys|
    requires forall j :: 0 <= j < |xs| ==> xs[j].key == ys[j].key
    ensures Find(xs, k) == Find(ys, k)
  {
    match Find(xs, k)
    case None =>
    case Some(i) =>
      assert ys[i].key == k;
  }

  /** The first entry with key `k` sits at `j`. */
  lemma FindIs(xs: seq<Item>, j: nat, k: Key)
    requires j < |xs| && xs[j].key == k
    requires forall m :: 0 <= m < j ==> xs[m].key != k
    ensures Find(xs, k) == Some(j)
  {
  }

  lemma DelAt(xs: seq<Item>, i: nat)
    requires i < |xs|
    ensures var ys := xs[..i] + xs[i + 1..];
      |ys| == |xs| - 1 && forall j :: 0 <= j < |ys| ==> ys[j] == xs[if j < i then j else j + 1]
  {
  }

  lemma FindDel(xs: seq<Item>, i: nat, k: Key)
    requires i < |xs| && k != xs[i].key
    ensures var ys := xs[..i] + xs[i + 1..];
      && (Find(ys, k).Some? <==> Find(xs, k).Some?)
      && (Find(xs, k).Some? ==> ys[Find(ys, k).value] == xs[Find(xs, k).value])
  {
    var ys := xs[..i] + xs[i + 1..];
    DelAt(xs, i);
    match Find(xs, k)
    case None =>
      assert forall m :: 0 <= m < |ys| ==> ys[m].key != k;
    case Some(j) =>
      var j' := if j < i then j else j - 1;
      assert ys[j'] == xs[j];
      forall m | 0 <= m < j'
        ensures ys[m].key != k
      {
        assert ys[m] == xs[if m < i then m else m + 1];
      }
      FindIs(ys, j', k);
  }

  /** Deleting `k` strips the other entries and keeps them where the lookup
      finds them. */
  lemma DeleteLookup(kb: KB, k: Key, k': Key)
    requires Present(kb, k) && k' != k
    ensures Present(Delete(kb, k).kb, k') == Present(kb, k')
    ensures Present(kb, k') ==> Lookup(Delete(kb, k).kb, k') == Some(Stripped(Lookup(kb, k').value, k))
  {
    var xs := Collection(kb, k);
    var i := Find(xs, k).value;
    var kb1 := WithCollection(kb, k, xs[..i] + xs[i + 1..]);
    var r := Delete(kb, k).kb;
    var c1 := Collection(kb1, k');
    assert Collection(r, k') == StripAll(c1, k);
    FindSameKeys(c1, StripAll(c1, k), k');
    if k'.FactKey? == k.FactKey? {
      FindDel(xs, i, k');
    }
  }

  /** With no duplicates, the deleted key is gone. */
  lemma DeleteGone(kb: KB, k: Key)
    requires Present(kb, k) && Distinct(Collection(kb, k))
    ensures !Present(Delete(kb, k).kb, k)
  {
    var xs := Collection(kb, k);
    var i := Find(xs, k).value;
    var ys := xs[..i] + xs[i + 1..];
    DelAt(xs, i);
    forall j | 0 <= j < |ys|
      ensures ys[j].key != k
    {
      var m := if j < i then j else j + 1;
      assert ys[j] == xs[m] && m != i;
    }
    var zs := Collection(Delete(kb, k).kb, k);
    assert zs == StripAll(ys, k);
    StripKeys(ys, k);
    assert Find(zs, k).None?;
  }

  /** Deleting `k` keeps every other key and its assertion, and, with no
      duplicates, leaves `k` itself absent. */
  lemma DeleteKeeps(kb: KB, k: Key)
    requires Present(kb, k)
    ensures forall k' :: k' != k ==> Present(Delete(kb, k).kb, k') == Present(kb, k')
    ensures forall k' :: k' != k ==> AssertedIn(Delete(kb, k).kb, k') == AssertedIn(kb, k')
    ensures Distinct(Collection(kb, k)) ==> !Present(Delete(kb, k).kb, k)
  {
    forall k' | k' != k
      ensures Present(Delete(kb, k).kb, k') == Present(kb, k')
      ensures AssertedIn(kb, k') == AssertedIn(Delete(kb, k).kb, k')
    {
      DeleteLookup(kb, k, k');
    }
    if Distinct(Collection(kb, k)) {
      DeleteGone(kb, k);
    }
  }

  /** Clearing the assertion of `k` keeps every key where it was, and every
      other entry as it was. */
  lemma ClearKeeps(kb: KB, k: Key)
    requires Present(kb, k)
    ensures var u := Update(kb, k, Lookup(kb, k).value.(asserted := false));
      && (forall k' :: Present(u, k') == Present(kb, k'))
      && (forall k' :: k' != k ==> Lookup(u, k') == Lookup(kb, k'))
      && Lookup(u, k) == Some(Lookup(kb, k).value.(asserted := false))
  {
    var e' := Lookup(kb, k).value.(asserted := false);
    forall k' {
      UpdateLookup(kb, k, e', k');
    }
  }

  lemma UpdateLookup(kb: KB, k: Key, e: Item, k': Key)
    requires Present(kb, k) && e.key == k
    ensures Present(Update(kb, k, e), k') == Present(kb, k')
    ensures Lookup(Update(kb, k, e), k') == if k' == k then Some(e) else Lookup(kb, k')
  {
    var xs := Collection(kb, k);
    var i := Find(xs, k).value;
    var ys := xs[i := e];
    if k'.FactKey? == k.FactKey? {
      FindSameKeys(xs, ys, k');
    }
  }

  lemma UpdateSame(kb: KB, k: Key)
    requires Present(kb, k)
    ensures Update(kb, k, Lookup(kb, k).value) == kb
  {
    var xs := Collection(kb, k);
    var i := Find(xs, k).value;
    assert xs[i := xs[i]] == xs;
  }

  // ----- One step preserves the invariants -----

  /** Taking an entry out of a valid-shaped knowledge base leaves the
      other entries, none of which has the key taken out. */
  lemma WithoutMembers(kb: KB, k: Key)
    requires Present(kb, k)
    requires WellKinded(kb) && Distinct(kb.facts) && Distinct(kb.rules)
    ensures var kb1 := Without(kb, k);
      && WellKinded(kb1) && Distinct(kb1.facts) && Distinct(kb1.rules)
      && (forall e :: e in kb1.facts ==> e in kb.facts && e.key != k)
      && (forall e :: e in kb1.rules ==> e in kb.rules && e.key != k)
  {
    var xs := Collection(kb, k);
    var i := Find(xs, k).value;
    var ys := xs[..i] + xs[i + 1..];
    DelAt(xs, i);
    DelMembers(xs, i, k);
    if k.FactKey? {
      assert Without(kb, k) == kb.(facts := ys);
    } else {
      assert Without(kb, k) == kb.(rules := ys);
    }
  }

  /** The collection without its entry at `i` keeps the others, none of
      them with that entry's key when the collection has no duplicates. */
  lemma DelMembers(xs: seq<Item>, i: nat, k: Key)
    requires i < |xs| && xs[i].key == k && Distinct(xs)
    ensures var ys := xs[..i] + xs[i + 1..];
      && Distinct(ys)
      && (forall e :: e in ys ==> e in xs && e.key != k)
      && (forall j :: 0 <= j < |ys| ==> ys[j] in xs)
  {
    var ys := xs[..i] + xs[i + 1..];
    DelAt(xs, i);
    forall e | e in ys
      ensures e in xs && e.key != k
    {
      var j :| 0 <= j < |ys| && ys[j] == e;
      var m := if j < i then j else j + 1;
      assert ys[j] == xs[m] && m != i;
    }
  }

  /** The entries left in one collection after deleting `k` still name only
      stored entries, and each unjustified one is an orphan or still waiting. */
  lemma StripInv(kb: KB, work: seq<Key>, src: seq<Item>)
    requires |work| > 0 && Present(kb, work[0])
    requires forall e :: e in src ==> RefsLive(kb, e.supportedBy) && e.key != work[0]
    requires forall e :: e in src && !Justified(e) ==> e.key in work
    ensures var k := work[0];
      var zs := StripAll(src, k);
      forall j :: 0 <= j < |zs| ==>
        && RefsLive(Delete(kb, k).kb, zs[j].supportedBy)
        && (!Justified(zs[j]) ==> zs[j].key in Orphans(src, zs) + work[1..])
  {
    var k := work[0];
    var zs := StripAll(src, k);
    forall j | 0 <= j < |zs|
      ensures RefsLive(Delete(kb, k).kb, zs[j].supportedBy)
      ensures !Justified(zs[j]) ==> zs[j].key in Orphans(src, zs) + work[1..]
    {
      var e := src[j];
      assert e in src;
      ItemRefsSurvive(kb, k, e.supportedBy);
      if !Justified(zs[j]) && !Justified(e) {
        assert e.key in work[1..];
      }
    }
  }

  /** Stripping keeps every key, so it keeps the kinds and the absence of
      duplicates. */
  lemma StripKeys(xs: seq<Item>, k: Key)
    ensures forall j :: 0 <= j < |xs| ==> StripAll(xs, k)[j].key == xs[j].key
    ensures Distinct(xs) ==> Distinct(StripAll(xs, k))
  {
  }

  lemma DeleteInv(kb: KB, work: seq<Key>)
    requires |work| > 0 && Inv(kb, work) && Present(kb, work[0])
    ensures Inv(Delete(kb, work[0]).kb, Delete(kb, work[0]).orphans + work[1..])
  {
    var k := work[0];
    var kb1 := Without(kb, k);
    var st := Delete(kb, k);
    var r := st.kb;
    var work' := st.orphans + work[1..];
    assert r.facts == StripAll(kb1.facts, k) && r.rules == StripAll(kb1.rules, k);
    WithoutMembers(kb, k);
    StripKeys(kb1.facts, k);
    StripKeys(kb1.rules, k);
    assert WellKinded(r);
    var o1 := Orphans(kb1.facts, r.facts);
    var o2 := Orphans(kb1.rules, r.rules);
    assert st.orphans == o1 + o2;
    assert Closed(r) && JustifiedExcept(r, work') by {
      assert forall e :: e in kb1.facts ==> RefsLive(kb, e.supportedBy);
      assert forall e :: e in kb1.rules ==> RefsLive(kb, e.supportedBy);
      StripInv(kb, work, kb1.facts);
      StripInv(kb, work, kb1.rules);
      forall j | 0 <= j < |r.facts| && !Justified(r.facts[j])
        ensures r.facts[j].key in work'
      {
        assert r.facts[j].key in o1 + work[1..];
      }
      forall j | 0 <= j < |r.rules| && !Justified(r.rules[j])
        ensures r.rules[j].key in work'
      {
        assert r.rules[j].key in o2 + work[1..];
      }
    }
  }

  /** A support list of a stored entry, stripped of the deleted key, still
      names only stored entries. */
  lemma ItemRefsSurvive(kb: KB, k: Key, s: seq<Support>)
    requires Present(kb, k) && RefsLive(kb, s)
    ensures RefsLive(Delete(kb, k).kb, Strip(s, k))
  {
    forall p | p in Strip(s, k)
      ensures Present(Delete(kb, k).kb, FactKey(p.fact)) && Present(Delete(kb, k).kb, RuleKey(p.rule))
    {
      DeleteLookup(kb, k, FactKey(p.fact));
      DeleteLookup(kb, k, RuleKey(p.rule));
    }
  }

  /** Leaving a justified (or absent) first work item alone keeps the
      invariant without it. */
  lemma SkipInv(kb: KB, work: seq<Key>)
    requires |work| > 0 && Inv(kb, work)
    requires Lookup(kb, work[0]).Some? ==> Justified(Lookup(kb, work[0]).value)
    ensures Inv(kb, work[1..])
  {
    forall j | 0 <= j < |kb.facts| && !Justified(kb.facts[j])
      ensures kb.facts[j].key in work[1..]
    {
      FindDistinct(kb.facts, j);
    }
    forall j | 0 <= j < |kb.rules| && !Justified(kb.rules[j])
      ensures kb.rules[j].key in work[1..]
    {
      FindDistinct(kb.rules, j);
    }
  }

  /** Entries agree position by position on key, support and justification. */
  predicate SameShape(a: seq<Item>, b: seq<Item>) {
    && |a| == |b|
    && forall j :: 0 <= j < |a| ==>
      (a[j].key == b[j].key && a[j].supportedBy == b[j].supportedBy && Justified(a[j]) == Justified(b[j]))
  }

  /** The invariant only looks at keys, support and justification. */
  lemma ShapeInv(kb: KB, r: KB, w: seq<Key>)
    requires SameShape(kb.facts, r.facts) && SameShape(kb.rules, r.rules)
    requires Inv(kb, w)
    ensures Inv(r, w)
  {
    forall k' ensures Present(r, k') == Present(kb, k') {
      FindSameKeys(kb.facts, r.facts, k');
      FindSameKeys(kb.rules, r.rules, k');
    }
    assert Closed(r) by {
      forall j | 0 <= j < |r.facts| ensures RefsLive(r, r.facts[j].supportedBy) {
        assert RefsLive(kb, kb.facts[j].supportedBy);
      }
      forall j | 0 <= j < |r.rules| ensures RefsLive(r, r.rules[j].supportedBy) {
        assert RefsLive(kb, kb.rules[j].supportedBy);
      }
    }
  }

  /** Clearing the assertion of a supported entry keeps the invariant. */
  lemma ClearInv(kb: KB, work: seq<Key>)
    requires |work| > 0 && Inv(kb, work) && Present(kb, work[0])
    requires |Lookup(kb, work[0]).value.supportedBy| > 0
    ensures Inv(Update(kb, work[0], Lookup(kb, work[0]).value.(asserted := false)), work[1..])
  {
    var k := work[0];
    var e := Lookup(kb, k).value.(asserted := false);
    var r := Update(kb, k, e);
    SkipInv(kb, work);
    var xs := Collection(kb, k);
    var i := Find(xs, k).value;
    assert Collection(r, k) == xs[i := e];
    assert SameShape(xs, xs[i := e]);
    ShapeInv(kb, r, work[1..]);
  }

  lemma StepInv(kb: KB, work: seq<Key>, revoke: bool)
    requires |work| > 0
    ensures var st := if revoke then RetractOne(kb, work[0]) else DropIfUnjustified(kb, work[0]);
      Inv(kb, work) ==> Inv(st.kb, st.orphans + work[1..])
  {
    var w := work[0];
    if Inv(kb, work) {
      match Lookup(kb, w)
      case None =>
        SkipInv(kb, work);
      case Some(e) =>
        if revoke {
          if w.FactKey? {
            if |e.supportedBy| == 0 { DeleteInv(kb, work); } else { ClearInv(kb, work); }
          } else if !e.asserted && |e.supportedBy| == 0 {
            DeleteInv(kb, work);
          } else {
            SkipInv(kb, work);
          }
        } else if !Justified(e) {
          DeleteInv(kb, work);
        } else {
          SkipInv(kb, work);
        }
    }
  }

  lemma StepPresent(kb: KB, w: Key, revoke: bool)
    ensures var st := if revoke then RetractOne(kb, w) else DropIfUnjustified(kb, w);
      forall k :: Present(st.kb, k) ==> Present(kb, k)
  {
    var st := if revoke then RetractOne(kb, w) else DropIfUnjustified(kb, w);
    forall k | Present(st.kb, k)
      ensures Present(kb, k)
    {
      if Present(kb, w) {
        if k != w {
          DeleteLookup(kb, w, k);
          UpdateLookup(kb, w, Lookup(kb, w).value.(asserted := false), k);
        }
      }
    }
  }

  /** One visit never takes a pair away from an entry while the fact and the
      rule it names are still stored, and never deletes an entry holding
      such a pair. */
  lemma StepSurvival(kb: KB, w: Key, revoke: bool)
    ensures var st := if revoke then RetractOne(kb, w) else DropIfUnjustified(kb, w);
      NoDuplicates(kb) ==> Survives(kb, st.kb)
  {
    var st := if revoke then RetractOne(kb, w) else DropIfUnjustified(kb, w);
    forall x, p | NoDuplicates(kb) && Supports(kb, x, p) && PairLive(st.kb, p)
      ensures Supports(st.kb, x, p)
    {
      if Present(kb, w) {
        var e := Lookup(kb, w).value;
        if |e.supportedBy| == 0 && ((revoke && w.FactKey?) || !e.asserted) {
          assert st == Delete(kb, w);
          assert x != w;
          DeleteGone(kb, w);
          DeleteLookup(kb, w, x);
          assert !Names(p, w);
        } else if revoke && w.FactKey? {
          UpdateLookup(kb, w, e.(asserted := false), x);
        } else {
          assert st.kb == kb;
        }
      }
    }
  }

  /** The corrected visit deletes only an unasserted entry, keeps every
      assertion, and keeps every pair whose fact and rule are asserted. */
  lemma DropAsserted(kb: KB, w: Key)
    ensures forall k :: AssertedIn(kb, k) ==> AssertedIn(DropIfUnjustified(kb, w).kb, k)
    ensures forall x, p :: SupportedByAsserted(kb, x, p) ==> SupportedByAsserted(DropIfUnjustified(kb, w).kb, x, p)
  {
    var r := DropIfUnjustified(kb, w).kb;
    if Lookup(kb, w).Some? && !Justified(Lookup(kb, w).value) {
      forall k | AssertedIn(kb, k)
        ensures AssertedIn(r, k)
      {
        DeleteLookup(kb, w, k);
      }
      forall x, p | SupportedByAsserted(kb, x, p)
        ensures SupportedByAsserted(r, x, p)
      {
        DeleteLookup(kb, w, x);
        DeleteLookup(kb, w, FactKey(p.fact));
        DeleteLookup(kb, w, RuleKey(p.rule));
      }
    }
  }

  /** One visit never gives an entry a pair it did not hold. */
  lemma StepPairsKept(kb: KB, w: Key, revoke: bool)
    ensures var st := if revoke then RetractOne(kb, w) else DropIfUnjustified(kb, w);
      NoDuplicates(kb) ==> PairsKept(kb, st.kb)
  {
    var st := if revoke then RetractOne(kb, w) else DropIfUnjustified(kb, w);
    forall x, p | NoDuplicates(kb) && Supports(st.kb, x, p)
      ensures Supports(kb, x, p)
    {
      if Present(kb, w) {
        var e := Lookup(kb, w).value;
        if |e.supportedBy| == 0 && ((revoke && w.FactKey?) || !e.asserted) {
          assert st == Delete(kb, w);
          DeleteGone(kb, w);
          assert x != w;
          DeleteLookup(kb, w, x);
        } else if revoke && w.FactKey? {
          UpdateLookup(kb, w, e.(asserted := false), x);
        }
      }
    }
  }

  /** A visit keeps the flags of the entries it leaves, as long as the full
      retraction only ever visits keys without support; and it keeps that
      so. */
  lemma StepFlags(kb: KB, work: seq<Key>, revoke: bool)
    requires |work| > 0
    ensures var st := if revoke then RetractOne(kb, work[0]) else DropIfUnjustified(kb, work[0]);
      && (Inv(kb, work) && (!revoke || WorkBare(kb, work)) ==> FlagsAsBefore(kb, st.kb))
      && (Inv(kb, work) && WorkBare(kb, work) ==> WorkBare(st.kb, st.orphans + work[1..]))
  {
    var w := work[0];
    var st := if revoke then RetractOne(kb, w) else DropIfUnjustified(kb, w);
    if Inv(kb, work) && Present(kb, w) {
      var e := Lookup(kb, w).value;
      if |e.supportedBy| == 0 && ((revoke && w.FactKey?) || !e.asserted) {
        assert st == Delete(kb, w);
        DeleteKeeps(kb, w);
        if WorkBare(kb, work) {
          DeleteOrphans(kb, w);
          forall w' | w' in work[1..] && Present(st.kb, w')
            ensures |Lookup(st.kb, w').value.supportedBy| == 0
          {
            DeleteLookup(kb, w, w');
          }
        }
      }
    }
  }

  /** Every orphan of a deletion held a pair naming the deleted entry, and
      is stored afterwards with no support left. */
  lemma DeleteOrphans(kb: KB, w: Key)
    requires Present(kb, w) && WellKinded(kb) && NoDuplicates(kb)
    ensures forall o :: o in Delete(kb, w).orphans ==> DerivedFrom(kb, w, o)
    ensures WorkBare(Delete(kb, w).kb, Delete(kb, w).orphans)
  {
    var kb1 := Without(kb, w);
    var st := Delete(kb, w);
    var fs := StripAll(kb1.facts, w);
    var rs := StripAll(kb1.rules, w);
    assert st.kb == KB(fs, rs);
    assert st.orphans == Orphans(kb1.facts, fs) + Orphans(kb1.rules, rs);
    WithoutMembers(kb, w);
    StripKeys(kb1.facts, w);
    StripKeys(kb1.rules, w);
    CollectionOrphans(kb, st.kb, kb.facts, kb1.facts, w);
    CollectionOrphans(kb, st.kb, kb.rules, kb1.rules, w);
  }

  /** The orphans of one collection, `xs` drawn from the stored `cs` and
      stripped into the collection `r` now holds. */
  lemma CollectionOrphans(kb: KB, r: KB, cs: seq<Item>, xs: seq<Item>, w: Key)
    requires Distinct(cs) && forall j :: 0 <= j < |cs| ==> Collection(kb, cs[j].key) == cs
    requires forall e :: e in xs ==> e in cs
    requires Distinct(StripAll(xs, w))
    requires forall j :: 0 <= j < |xs| ==> Collection(r, xs[j].key) == StripAll(xs, w)
    ensures forall o :: o in Orphans(xs, StripAll(xs, w)) ==>
      DerivedFrom(kb, w, o) && Present(r, o) && |Lookup(r, o).value.supportedBy| == 0
  {
    var ys := StripAll(xs, w);
    forall o | o in Orphans(xs, ys)
      ensures DerivedFrom(kb, w, o) && Present(r, o) && |Lookup(r, o).value.supportedBy| == 0
    {
      var i :| 0 <= i < |ys| && ys[i].key == o && |xs[i].supportedBy| > 0 && |ys[i].supportedBy| == 0;
      var e := xs[i];
      assert e.key == o;
      assert e in xs;
      var j :| 0 <= j < |cs| && cs[j] == e;
      FindDistinct(cs, j);
      assert Lookup(kb, o) == Some(e);
      var p := e.supportedBy[0];
      assert p in e.supportedBy && p !in Strip(e.supportedBy, w);
      FindDistinct(ys, i);
    }
  }

  /** The orphans of the direct call have no support left. */
  lemma RetractOneBare(kb: KB, k: Key)
    requires WellKinded(kb) && NoDuplicates(kb)
    ensures WorkBare(RetractOne(kb, k).kb, RetractOne(kb, k).orphans)
  {
    if Present(kb, k) && RetractOne(kb, k) == Delete(kb, k) {
      DeleteOrphans(kb, k);
    }
  }

  // ----- The direct call -----

  lemma RetractOneKeeps(kb: KB, k: Key, x: Key, p: Support)
    requires SupportedByAsserted(kb, x, p)
    requires FactKey(p.fact) != k && RuleKey(p.rule) != k
    ensures SupportedByAsserted(RetractOne(kb, k).kb, x, p)
  {
    if Present(kb, k) {
      var e := Lookup(kb, k).value;
      var st := RetractOne(kb, k);
      if st.kb == Delete(kb, k).kb && st.kb != kb {
        assert x != k;
        DeleteLookup(kb, k, x);
        DeleteLookup(kb, k, FactKey(p.fact));
        DeleteLookup(kb, k, RuleKey(p.rule));
        assert !Names(p, k);
      } else if k.FactKey? && |e.supportedBy| > 0 {
        var e' := e.(asserted := false);
        UpdateLookup(kb, k, e', x);
        UpdateLookup(kb, k, e', FactKey(p.fact));
        UpdateLookup(kb, k, e', RuleKey(p.rule));
      }
    }
  }


  lemma RetractOneInv(kb: KB, k: Key)
    requires Valid(kb)
    ensures Inv(RetractOne(kb, k).kb, RetractOne(kb, k).orphans)
  {
    ValidInv(kb);
    assert Inv(kb, [k]);
    assert [k][1..] == [];
    StepInv(kb, [k], true);
  }
}

=== FILE: scenarios.dfy ===
/** Worked examples: one forward-chaining derivation and one query, on
    concrete statements. */
module Scenarios {
  import opened Optional
  import opened Statements
  import opened Entries
  import opened Forward
  import opened Query

  const X := Var("x")
  const A := Const("a")
  const B := Const("b")
  const Px := Statement("P", [X])
  const Qx := Statement("Q", [X])
  const Pa := Statement("P", [A])
  const Pb := Statement("P", [B])
  const Qa := Statement("Q", [A])

  /** The rule P(?x) => Q(?x). */
  const PQ := Rule([Px], Qx)

  /** Matching P(a) against P(?x) binds ?x to a. */
  lemma MatchPa()
    ensures Match(Pa, Px) == Some(map["x" := A])
    ensures Match(Qa, Px).None?
  {
    assert Match(Pa, Px) == MatchTerms([A], [X], map[]);
    assert [A][1..] == [] && [X][1..] == [];
    assert MatchTerms([A], [X], map[]) == MatchTerms([], [], map["x" := A]);
    assert Qa.symbol != Px.symbol;
  }

  /** Firing P(?x) => Q(?x) on P(a) derives Q(a), supported by that pair. */
  lemma DerivePa()
    ensures Derive(Pa, PQ) == Some(Item(FactKey(Qa), false, [Support(Pa, PQ)]))
    ensures Derive(Qa, PQ).None?
  {
    MatchPa();
    var q := Instantiate(Qx, map["x" := A]);
    assert q.terms[0] == A;
    assert q == Qa;
  }

  const RuleItem := Item(RuleKey(PQ), true, [])
  const FactPa := Item(FactKey(Pa), true, [])
  const FactQa := Item(FactKey(Qa), false, [Support(Pa, PQ)])

  lemma DistinctStatements()
    ensures Pa != Qa
  {
    assert Pa.symbol != Qa.symbol;
  }

  lemma AssertRuleStep()
    ensures Assert(KB([], []), RuleKey(PQ), 2) == KB([], [RuleItem])
  {
    assert Add(KB([], []), RuleItem, 2) == AddLoop(KB([], [RuleItem]), RuleKey(PQ), 0, 2);
  }

  /** Q(a) arrives new, and pairing it with the rule derives nothing. */
  lemma AddQaStep()
    ensures Add(KB([FactPa], [RuleItem]), FactQa, 1) == Run(KB([FactPa, FactQa], [RuleItem]), 0)
  {
    DerivePa();
    DistinctStatements();
    var kb3 := KB([FactPa, FactQa], [RuleItem]);
    assert Find([FactPa], FactKey(Qa)).None?;
    assert Add(KB([FactPa], [RuleItem]), FactQa, 1) == AddLoop(kb3, FactKey(Qa), 0, 1);
    assert Infer(kb3, Qa, PQ, 0) == Run(kb3, 0);
    assert AddLoop(kb3, FactKey(Qa), 0, 1) == AddLoop(kb3, FactKey(Qa), 1, 0);
  }

  /** P(a) fired against the rule adds Q(a) and spends the budget. */
  lemma InferPaStep()
    ensures Infer(KB([FactPa], [RuleItem]), Pa, PQ, 1) == Run(KB([FactPa, FactQa], [RuleItem]), 0)
  {
    DerivePa();
    AddQaStep();
  }

  lemma AddPaLoop()
    ensures AddLoop(KB([FactPa], [RuleItem]), FactKey(Pa), 0, 2) == Run(KB([FactPa, FactQa], [RuleItem]), 0)
  {
    InferPaStep();
    var kb3 := KB([FactPa, FactQa], [RuleItem]);
    assert AddLoop(KB([FactPa], [RuleItem]), FactKey(Pa), 0, 2) == AddLoop(kb3, FactKey(Pa), 1, 0);
  }

  lemma AssertFactStep()
    ensures Assert(KB([], [RuleItem]), FactKey(Pa), 2) == KB([FactPa, FactQa], [RuleItem])
  {
    AddPaLoop();
    var kb := KB([], [RuleItem]);
    assert Collection(kb, FactKey(Pa)) == [];
    assert Find([], FactKey(Pa)).None?;
    assert WithCollection(kb, FactKey(Pa), [] + [FactPa]) == KB([FactPa], [RuleItem]);
    assert Add(kb, FactPa, 2) == AddLoop(KB([FactPa], [RuleItem]), FactKey(Pa), 0, 2);
  }

  /** Asserting the rule and then the fact P(a) stores P(a) and the derived
      Q(a), unasserted and justified by (P(a), P(?x) => Q(?x)). */
  lemma ForwardChainExample()
    ensures Assert(Assert(KB([], []), RuleKey(PQ), 2), FactKey(Pa), 2) ==
      KB([Item(FactKey(Pa), true, []), Item(FactKey(Qa), false, [Support(Pa, PQ)])],
         [Item(RuleKey(PQ), true, [])])
  {
    AssertRuleStep();
    AssertFactStep();
  }

  /** Asking P(?x) of {P(a), P(b), Q(a)} finds P(a) with ?x = a and P(b)
      with ?x = b, in that order; asking with a rule finds nothing. */
  lemma AskExample()
    ensures var kb := KB([Item(FactKey(Pa), true, []), Item(FactKey(Pb), true, []), Item(FactKey(Qa), true, [])], []);
      && Ask(kb, FactKey(Px)) == [Answer(map["x" := A], kb.facts[0]), Answer(map["x" := B], kb.facts[1])]
      && Ask(kb, RuleKey(PQ)) == []
  {
    var kb := KB([Item(FactKey(Pa), true, []), Item(FactKey(Pb), true, []), Item(FactKey(Qa), true, [])], []);
    assert Match(Px, Pa) == Some(map["x" := A]) by {
      assert [X][1..] == [] && [A][1..] == [];
      assert MatchTerms([X], [A], map[]) == MatchTerms([], [], map["x" := A]);
    }
    assert Match(Px, Pb) == Some(map["x" := B]) by {
      assert [X][1..] == [] && [B][1..] == [];
      assert MatchTerms([X], [B], map[]) == MatchTerms([], [], map["x" := B]);
    }
    assert Match(Px, Qa).None? by { assert Px.symbol != Qa.symbol; }
    var xs := kb.facts;
    assert xs[1..][1..][1..] == [];
    assert Answers(xs[1..][1..], Px) == [];
    assert Answers(xs[1..], Px) == [Answer(map["x" := B], xs[1])];
  }
}

=== FILE: statements.dfy ===
/** An optional value: the model's stand-in for the source's `False`/`None`
    sentinels (a failed match, a missing entry). */
module Optional {
  datatype Option<+T> = None | Some(value: T)
}

/** Statements and the unification service the knowledge base consumes.
    The source imports `match` and `instantiate` from a helper module that is
    not part of this model; this module gives them a small term language of
    variables and constants so that the rest of the model has something
    concrete to run against. */
module Statements {
  import opened Optional

  datatype Term = Var(name: string) | Const(name: string)

  /** A predicate symbol applied to an ordered list of terms. Two statements
      are the same statement exactly when they are structurally equal. */
  datatype Statement = Statement(symbol: string, terms: seq<Term>)

  /** A substitution from variable names to terms. */
  type Bindings = map<string, Term>

  /** `b'` keeps every binding of `b`. */
  predicate Within(b: Bindings, b': Bindings) {
    forall v :: v in b ==> v in b' && b'[v] == b[v]
  }

  predicate Ground(s: Statement) {
    forall i :: 0 <= i < |s.terms| ==> s.terms[i].Const?
  }

  /** Binds `v` to `t` unless `v` is already bound to something else. */
  function TestAndBind(b: Bindings, v: string, t: Term): (r: Option<Bindings>)
    ensures r.Some? <==> (v in b ==> b[v] == t)
    ensures r.Some? ==> Within(b, r.value) && v in r.value && r.value[v] == t
  {
    if v in b then (if b[v] == t then Some(b) else None) else Some(b[v := t])
  }

  /** Pairwise matching of two term lists of equal length, left to right; a
      variable on the left is bound first, then a variable on the right, and
      two constants must be equal. */
  function MatchTerms(ts1: seq<Term>, ts2: seq<Term>, b: Bindings): (r: Option<Bindings>)
    requires |ts1| == |ts2|
    ensures r.Some? ==> Within(b, r.value)
    decreases |ts1|
  {
    if |ts1| == 0 then Some(b)
    else
      var step :=
        if ts1[0].Var? then TestAndBind(b, ts1[0].name, ts2[0])
        else if ts2[0].Var? then TestAndBind(b, ts2[0].name, ts1[0])
        else if ts1[0] == ts2[0] then Some(b)
        else None;
      match step
      case None => None
      case Some(b') => MatchTerms(ts1[1..], ts2[1..], b')
  }

  /** Unifies two statements: `None` when the predicates or arities differ or
      the terms clash. */
  function Match(s1: Statement, s2: Statement): (r: Option<Bindings>)
    ensures r.Some? ==> s1.symbol == s2.symbol && |s1.terms| == |s2.terms|
  {
    if s1.symbol != s2.symbol || |s1.terms| != |s2.terms| then None
    else MatchTerms(s1.terms, s2.terms, map[])
  }

  /** A bound variable is replaced by its value; anything else is kept. */
  function InstantiateTerm(t: Term, b: Bindings): Term {
    if t.Var? && t.name in b then b[t.name] else t
  }

  function Instantiate(s: Statement, b: Bindings): (r: Statement)
    ensures r.symbol == s.symbol && |r.terms| == |s.terms|
    ensures forall i :: 0 <= i < |s.terms| ==> r.terms[i] == InstantiateTerm(s.terms[i], b)
  {
    Statement(s.symbol, seq(|s.terms|, i requires 0 <= i < |s.terms| => InstantiateTerm(s.terms[i], b)))
  }

  /** Matching a ground term list against another one yields a substitution
      that maps every term of the other list onto the ground term beside it. */
  lemma {:induction false} MatchTermsGroundSound(ts1: seq<Term>, ts2: seq<Term>, b: Bindings)
    requires |ts1| == |ts2|
    requires forall i :: 0 <= i < |ts1| ==> ts1[i].Const?
    requires MatchTerms(ts1, ts2, b).Some?
    ensures forall i :: 0 <= i < |ts2| ==> InstantiateTerm(ts2[i], MatchTerms(ts1, ts2, b).value) == ts1[i]
    decreases |ts1|
  {
    if |ts1| > 0 {
      var r := MatchTerms(ts1, ts2, b).value;
      var b' := if ts2[0].Var? then TestAndBind(b, ts2[0].name, ts1[0]).value else b;
      assert MatchTerms(ts1, ts2, b) == MatchTerms(ts1[1..], ts2[1..], b');
      MatchTermsGroundSound(ts1[1..], ts2[1..], b');
      forall i | 0 <= i < |ts2|
        ensures InstantiateTerm(ts2[i], r) == ts1[i]
      {
        if i > 0 {
          assert ts2[i] == ts2[1..][i - 1] && ts1[i] == ts1[1..][i - 1];
        }
      }
    }
  }

  /** When the first statement is ground, a successful match is a
      substitution that turns the second statement into the first. */
  lemma MatchGroundSound(s1: Statement, s2: Statement)
    requires Ground(s1)
    requires Match(s1, s2).Some?
    ensures Instantiate(s2, Match(s1, s2).value) == s1
  {
    MatchTermsGroundSound(s1.terms, s2.terms, map[]);
    assert Instantiate(s2, Match(s1, s2).value).terms == s1.terms;
  }
}
